=== FILE: README.md ===
# walkingkooka-tree expression core, modelled in Dafny

This project models a slice of walkingkooka-tree, a Java library of expression trees and the functions they call. It covers the following parts:

- **Function contract** (`ExpressionFunction`). This covers the anonymous-name constants and the `setKinds` bulk update. It also covers the argument-count check that every function runs against the parameters it declares for a call. Each parameter is `REQUIRED` (exactly one argument), `OPTIONAL` (zero or one) or `VARIABLE` (any number when it comes last).
- **Function parameter** (`ExpressionFunctionParameter`). This covers its equality, hash code, `toString` and conversion of an argument to its declared type.
- **Three functions**:
  - the anonymous lambda function, which binds its arguments into a derived context and runs a body;
  - `starts-with`;
  - `false`.
- **Two number reducers.** `and` computes the two's-complement AND of BigIntegers and of longs. `power` covers BigDecimal, BigInteger, double and long operands.
- **`GreaterThanExpression`.** This covers its construction, child replacement, its part of the visitor protocol, its comparison relation, its equality guard and its printed symbol.
- **The converter that turns numbers into `ExpressionNumber`s.** It wraps another converter.

Java exceptions become `Result` failures that carry a datatype naming the exception. A Java `Either` keeps its shape: `Left` holds the converted value and `Right` holds the failure. Collaborators whose code is not part of this model are parameters of the functions that use them:

- the conversions of a function context;
- the promotion of mixed numeric operands;
- `BigDecimalMath.pow`;
- `Math.pow`;
- the derived evaluation context;
- the parameter matcher.

The modules follow the Java classes:

| module | models |
|---|---|
| `Results` | `Optional`, thrown exceptions, `Either` |
| `JavaTypes` | `Class` names and simple names |
| `Numbers` | `Number` representations, BigInteger and long AND bit by bit, exact BigDecimal to BigInteger |
| `Values` | argument values and the context's conversion |
| `FunctionParameter` | `ExpressionFunctionParameter` and its cardinality |
| `ExpressionFunction` | `ExpressionFunction` |
| `LambdaFunction` | `LambdaExpressionFunction` |
| `StartsWithFunction` | `StartsWithExpressionFunction` |
| `FalseFunction` | `FalseExpressionFunction` |
| `NumberReducer` | the dispatch of a reducer visitor on two numbers |
| `NumberReducerAnd` | `ExpressionNumberReducerBinaryExpressionNumberVisitorAnd` |
| `NumberReducerPower` | `ExpressionNumberReducerBinaryExpressionNumberVisitorPower` |
| `GreaterThanExpression` | `GreaterThanExpression` |
| `NumberConverter` | `ExpressionNumberConverterNumberExpressionNumber` |

The reducers print as their constants `NumberReducerAnd.NAME` ("and") and `NumberReducerPower.NAME` ("power"). A Java long is an integer in the 64-bit two's-complement range, so the long AND is the BigInteger AND restricted to that range (`Numbers.LongAnd`).

Three points where the model follows the code rather than the class comments or a first reading:

- **Parameters carry more than the class shows.** The parameter class in this version has only a name and a type. `checkParameterCount` and `setKinds` also read a cardinality and replace a set of kinds, so the model's parameter has both fields; a new parameter starts with no kinds, which is the model's choice since the class holds none. A kind is known only by its name, since the kind enum's constants are not part of this model. Equality, hashing and `toString` still use only the name and the type, as the class does. Likewise `ExpressionFunction` in this version does not declare `parameter(int)`, which its tests call; `ParameterAt` models that lookup from the tests' verdicts.
- **A trailing `VARIABLE` has no upper bound.** `checkParameterCount` raises the bound to `Integer.MAX_VALUE` when the last parameter is `VARIABLE`, and an int count can never exceed that. The model therefore treats such a list as having no upper bound.
- **The converter's fallback ignores the target type.** The converter takes its fallback path for any target type the wrapped converter cannot handle directly. It does not check that the target is `ExpressionNumber` (`FallbackIgnoresTarget`, `StringRequestGetsExpressionNumber`).

## Model

| member | source | states |
|---|---|---|
| ExpressionFunction.CheckCount | src/main/java/walkingkooka/tree/expression/function/ExpressionFunction.java:88-112 | the count passes exactly when some split of the arguments gives every parameter between its minimum and maximum (a trailing VARIABLE is unbounded); it fails with MissingParameters(count, min) exactly when count is below the minimum sum, and with TooManyParameters(count, max) exactly when there is no trailing VARIABLE and count exceeds the maximum sum |
| ExpressionFunction.CheckParameterCount | src/main/java/walkingkooka/tree/expression/function/ExpressionFunction.java:88-112 | checkParameterCount(values) consults parameters(values.size()), passes exactly when some split of the arguments fits that list, and reports missing parameters exactly when the count is below its minimum sum |
| ExpressionFunction.CheckParameterCountLoop | src/main/java/walkingkooka/tree/expression/function/ExpressionFunction.java:88-112 | the single pass summing minimums and maximums and remembering the last cardinality accepts exactly the counts some split of the arguments fits, and agrees with CheckCount |
| ExpressionFunction.AcceptsIffWithinWindow | src/main/java/walkingkooka/tree/expression/function/ExpressionFunction.java:102-111 | a count can be distributed over the parameters exactly when it lies between the minimum sum and the maximum sum, or above the minimum when the last parameter is VARIABLE |
| ExpressionFunction.TrailingWindow | src/main/java/walkingkooka/tree/expression/function/ExpressionFunction.java:102-108 | with a trailing VARIABLE, a count can be distributed exactly when it is at least the minimum sum |
| ExpressionFunction.BoundedWindow | src/main/java/walkingkooka/tree/expression/function/ExpressionFunction.java:95-111 | without a trailing VARIABLE, a count can be distributed exactly when it lies between the minimum sum and the maximum sum |
| ExpressionFunction.BoundedSums | src/main/java/walkingkooka/tree/expression/function/ExpressionFunction.java:95-100 | any split that respects every parameter's bounds totals between the minimum sum and the maximum sum |
| ExpressionFunction.CheckConsultsParametersOfCount | src/main/java/walkingkooka/tree/expression/function/ExpressionFunction.java:94-95 | the check depends only on parameters(count) for the actual number of arguments |
| ExpressionFunction.NoParametersAcceptOnlyZero | src/main/java/walkingkooka/tree/expression/function/ExpressionFunction.java:106-111 | a function without parameters accepts only zero arguments and reports TooManyParameters(count, 0) otherwise |
| ExpressionFunction.ArityTableSingleKind | src/test/java/walkingkooka/tree/expression/function/ExpressionFunctionTest.java:46-109 | the tests' verdicts on lists of REQUIRED, OPTIONAL or VARIABLE parameters alone: one, two or three REQUIRED take exactly that many; OPTIONAL takes zero or one each; VARIABLE takes any number |
| ExpressionFunction.ArityTableMixed | src/test/java/walkingkooka/tree/expression/function/ExpressionFunctionTest.java:111-149 | the tests' verdicts on REQUIRED followed by OPTIONAL (one or two) and by VARIABLE (one or more) |
| ExpressionFunction.RequiredOptionalVariable | src/main/java/walkingkooka/tree/expression/function/ExpressionFunction.java:102-111 | REQUIRED, OPTIONAL, VARIABLE accepts every count from one upward and rejects zero |
| ExpressionFunction.SetKindsAll | src/main/java/walkingkooka/tree/expression/function/ExpressionFunction.java:59-69 | setKinds returns the list in the same order and of the same length, each parameter with its kinds replaced |
| ExpressionFunction.SetKindsPreservesArity | src/main/java/walkingkooka/tree/expression/function/ExpressionFunction.java:59-69 | setKinds leaves the accepted counts and each parameter's equality unchanged, and applying it twice equals applying it once |
| ExpressionFunction.ParameterAt | src/test/java/walkingkooka/tree/expression/function/ExpressionFunctionTest.java:176-253 | a negative index, or one past the end of a list without a trailing VARIABLE, fails with IndexOutOfBounds; an index inside the list gives that parameter; any index past the end of a list ending in VARIABLE gives that VARIABLE parameter |
| ExpressionFunction.AcceptedArgumentsHaveParameters | src/main/java/walkingkooka/tree/expression/function/ExpressionFunction.java:88-112 | once a count passes the check on a list whose only VARIABLE is last, every argument index has a parameter |
| FunctionParameter.With | src/main/java/walkingkooka/tree/expression/function/ExpressionFunctionParameter.java:29-35 | a new parameter holds the given name, type and cardinality and has no kinds |
| FunctionParameter.SetKinds | src/main/java/walkingkooka/tree/expression/function/ExpressionFunction.java:66 | a parameter with new kinds keeps its name, type and cardinality |
| FunctionParameter.EqualsIsEquivalence | src/main/java/walkingkooka/tree/expression/function/ExpressionFunctionParameter.java:78-84 | equals is reflexive, symmetric and transitive, holds exactly when names and types agree, and ignores kinds |
| FunctionParameter.EqualsImpliesEqualHashCodes | src/main/java/walkingkooka/tree/expression/function/ExpressionFunctionParameter.java:73-84 | equal parameters have equal hash codes, and a hash code is a 32-bit int |
| FunctionParameter.Int32 | src/main/java/walkingkooka/tree/expression/function/ExpressionFunctionParameter.java:74-76 | int arithmetic wraps into the 32-bit range and is congruent to the exact value modulo 2^32 |
| FunctionParameter.ToString | src/main/java/walkingkooka/tree/expression/function/ExpressionFunctionParameter.java:86-89 | toString is the type's name, one space, then the parameter's name |
| FunctionParameter.ToStringDeterminesEquals | src/main/java/walkingkooka/tree/expression/function/ExpressionFunctionParameter.java:78-89 | for type names without spaces, two parameters print alike exactly when they are equal |
| FunctionParameter.ConversionFollowsType | src/main/java/walkingkooka/tree/expression/function/ExpressionFunctionParameter.java:55-69 | convert asks the context for the parameter's type; convertOrFail succeeds with exactly the value convert returns as Left and fails exactly when it returns Right |
| Values.ConvertOrFail | src/main/java/walkingkooka/tree/expression/function/ExpressionFunctionParameter.java:63-69 | convertOrFail succeeds exactly on a Left conversion with its value, and fails with the Right's failure otherwise |
| LambdaFunction.Apply | src/main/java/walkingkooka/tree/expression/function/LambdaExpressionFunction.java:98-114 | applying succeeds exactly when the count check accepts the argument count; a success is the body's result on the context derived from the parameters, the values and the matcher; a failure is the count check's error |
| LambdaFunction.RejectedCountIgnoresBody | src/main/java/walkingkooka/tree/expression/function/LambdaExpressionFunction.java:101 | a rejected count fails the same way whatever the body, so the body is never run |
| LambdaFunction.BodySeesDerivedContext | src/main/java/walkingkooka/tree/expression/function/LambdaExpressionFunction.java:103-113 | the body sees the caller's context only through the derived context |
| LambdaFunction.LambdaMetadata | src/main/java/walkingkooka/tree/expression/function/LambdaExpressionFunction.java:69-96 | the name is absent, toString is "<anonymous>", purity is the construction flag whatever the purity context, and parameters(count) is the same list for every count |
| LambdaFunction.OneRequiredGivenTwo | src/main/java/walkingkooka/tree/expression/function/LambdaExpressionFunction.java:98-101 | a lambda declaring one REQUIRED parameter rejects two arguments with TooManyParameters(2, 1) |
| StartsWithFunction.StartsWith | src/main/java/walkingkooka/tree/expression/function/StartsWithExpressionFunction.java:46-47 | the character-by-character test holds exactly when the second string is a prefix of the first |
| StartsWithFunction.Apply | src/main/java/walkingkooka/tree/expression/function/StartsWithExpressionFunction.java:41-48 | a call without exactly two arguments fails with ParameterCount(n, 2); otherwise it succeeds exactly when both arguments convert to strings, with whether the second prefixes the first; argument 0 is converted first, so its failure is reported before argument 1's |
| StartsWithFunction.StringParameter | src/main/java/walkingkooka/tree/expression/function/StartsWithExpressionFunction.java:46-47 | an argument is read as a string exactly when the context converts it to a String value, and the result is that string; a failed conversion fails with the context's own failure, and a converted value that is not a String fails with NotAString of that value |
| StartsWithFunction.PrefixEdgeCases | src/main/java/walkingkooka/tree/expression/function/StartsWithExpressionFunction.java:46-47 | the empty string prefixes every string, every string prefixes itself, a longer string never does, and a prefix's first half is a prefix too |
| StartsWithFunction.ApplyOnStrings | src/main/java/walkingkooka/tree/expression/function/StartsWithExpressionFunction.java:41-48 | on two string arguments under a context that keeps strings, the answer is the prefix test itself |
| StartsWithFunction.NameAndToString | src/main/java/walkingkooka/tree/expression/function/StartsWithExpressionFunction.java:51-61 | the name is "starts-with" and toString is the name |
| FalseFunction.Apply | src/main/java/walkingkooka/tree/expression/function/FalseExpressionFunction.java:41-45 | apply returns false |
| FalseFunction.ApplyIgnoresArgumentsAndContext | src/main/java/walkingkooka/tree/expression/function/FalseExpressionFunction.java:41-45 | every call returns false, whatever its arguments and context |
| FalseFunction.NameAndToString | src/main/java/walkingkooka/tree/expression/function/FalseExpressionFunction.java:47-57 | the name is "false" and toString is the name |
| NumberReducerAnd.Compute | src/main/java/walkingkooka/tree/expression/ExpressionNumberReducerBinaryExpressionNumberVisitorAnd.java:24-44 | the result is a long or a BigInteger; for two BigIntegers each two's-complement bit of the result is the AND of the operands' bits, and likewise for two longs |
| NumberReducerAnd.AndCommutative | src/main/java/walkingkooka/tree/expression/ExpressionNumberReducerBinaryExpressionNumberVisitorAnd.java:36-44 | AND gives the same result with its operands swapped: always for two longs or two BigIntegers, and for other pairs when promotion treats swapped operands alike |
| NumberReducerAnd.AndIdempotent | src/main/java/walkingkooka/tree/expression/ExpressionNumberReducerBinaryExpressionNumberVisitorAnd.java:36-44 | x AND x is x for a long and for a BigInteger |
| NumberReducerAnd.IntegralPairIgnoresPromotion | src/main/java/walkingkooka/tree/expression/ExpressionNumberReducerBinaryExpressionNumberVisitorAnd.java:24-30 | two longs or two BigIntegers are ANDed without consulting promotion |
| Numbers.IntAndBits | src/main/java/walkingkooka/tree/expression/ExpressionNumberReducerBinaryExpressionNumberVisitorAnd.java:37-39 | bit i of the BigInteger AND is set exactly when bit i of both operands is set |
| Numbers.LongAnd | src/main/java/walkingkooka/tree/expression/ExpressionNumberReducerBinaryExpressionNumberVisitorAnd.java:41-44 | the long AND is again a long, so it cannot overflow, and each of its bits is set exactly when that bit of both operands is set |
| Numbers.BitsDetermineValue | src/main/java/walkingkooka/tree/expression/ExpressionNumberReducerBinaryExpressionNumberVisitorAnd.java:38-44 | two integers with the same two's-complement bits are equal |
| Numbers.AndIsUnique | src/main/java/walkingkooka/tree/expression/ExpressionNumberReducerBinaryExpressionNumberVisitorAnd.java:38-44 | any integer whose bits are the conjunction of the operands' bits is the BigInteger AND; so the long AND is the BigInteger AND of the same values, and widening before the AND changes nothing |
| Numbers.IntAndWithin | src/main/java/walkingkooka/tree/expression/ExpressionNumberReducerBinaryExpressionNumberVisitorAnd.java:41-44 | the AND of two numbers that fit in n + 1 bits of two's complement fits in n + 1 bits |
| Numbers.ToBigIntegerExact | src/main/java/walkingkooka/tree/expression/ExpressionNumberReducerBinaryExpressionNumberVisitorPower.java:47 | toBigIntegerExact returns the integer a decimal denotes, or fails with RoundingNecessary exactly when it denotes none |
| Numbers.BigDecimalRoundTrip | src/main/java/walkingkooka/tree/expression/ExpressionNumberReducerBinaryExpressionNumberVisitorPower.java:46-47 | a BigInteger converted to BigDecimal converts back exactly to itself |
| NumberReducerPower.PowerPair | src/main/java/walkingkooka/tree/expression/ExpressionNumberReducerBinaryExpressionNumberVisitorPower.java:39-58 | two BigDecimals give the BigDecimal pow returns, or pow's exception; two BigIntegers give a BigInteger, pow's exception or a failure; two doubles or two longs give a double |
| NumberReducerPower.Compute | src/main/java/walkingkooka/tree/expression/ExpressionNumberReducerBinaryExpressionNumberVisitorPower.java:27-33 | compute never returns a long, and fails only when the operands are visited as BigDecimals or as BigIntegers |
| NumberReducerPower.PowerResultRepresentation | src/main/java/walkingkooka/tree/expression/ExpressionNumberReducerBinaryExpressionNumberVisitorPower.java:27-58 | compute returns the decimal power for two BigDecimals, or the exception pow throws; a double for two longs or two doubles; and a BigInteger for two BigIntegers when it succeeds |
| NumberReducerPower.BigIntegerPowerIsExact | src/main/java/walkingkooka/tree/expression/ExpressionNumberReducerBinaryExpressionNumberVisitorPower.java:44-48 | the power of two BigIntegers is n exactly when pow of their decimal conversions succeeds with a decimal that denotes n |
| NumberReducerPower.BigIntegerPowerFailure | src/main/java/walkingkooka/tree/expression/ExpressionNumberReducerBinaryExpressionNumberVisitorPower.java:44-48 | when pow succeeds, the power of two BigIntegers fails with RoundingNecessary exactly when the decimal power denotes no integer; when pow throws, its exception is the result |
| NumberReducerPower.TwoPowerTen | src/main/java/walkingkooka/tree/expression/ExpressionNumberReducerBinaryExpressionNumberVisitorPower.java:44-48 | 2 to the power 10 on BigIntegers is 1024, whatever scale the exact decimal power carries |
| NumberReducerPower.SameRepresentationIgnoresPromotion | src/main/java/walkingkooka/tree/expression/ExpressionNumberReducerBinaryExpressionNumberVisitorPower.java:27-33 | operands already in the same representation are powered without consulting promotion |
| GreaterThanExpression.With | src/main/java/walkingkooka/tree/expression/GreaterThanExpression.java:31-34 | with builds a detached (NO_INDEX) GreaterThan node whose children are exactly left and right |
| GreaterThanExpression.SetChildren | src/main/java/walkingkooka/tree/expression/GreaterThanExpression.java:50-58 | setChildren fails unless given exactly two children; otherwise it gives a GreaterThan node at the same index holding exactly those children |
| GreaterThanExpression.Replace1 | src/main/java/walkingkooka/tree/expression/GreaterThanExpression.java:55-58 | replace1 always builds a GreaterThan node at the given index whose children are exactly the given left and right |
| GreaterThanExpression.SetChildrenRoundTrip | src/main/java/walkingkooka/tree/expression/GreaterThanExpression.java:50-58 | setting a node's own children gives the node back, and a second edit overrides the first |
| GreaterThanExpression.Accept | src/main/java/walkingkooka/tree/expression/GreaterThanExpression.java:62-68 | every visit of a node starts with the generic start and ends with the generic end, whatever the visitor answers |
| GreaterThanExpression.SkipVisitsNoChildren | src/main/java/walkingkooka/tree/expression/GreaterThanExpression.java:62-68 | a node whose specific start answers SKIP is started and ended, and its children are not visited |
| GreaterThanExpression.AcceptIsBalanced | src/main/java/walkingkooka/tree/expression/GreaterThanExpression.java:62-68 | in any visit every start event has a matching end event, because endVisit runs whether or not the start continued |
| GreaterThanExpression.NodeAcceptIsBalanced | src/main/java/walkingkooka/tree/expression/GreaterThanExpression.java:62-68 | the node's own accept is balanced too, whether its specific start continues or skips |
| GreaterThanExpression.VisitOrder | src/test/java/walkingkooka/tree/expression/XorExpressionTest.java:33-83 | with every hook continuing, a node over two string leaves is visited in the order 1315215242, seeing node, node, leaf 1 three times, leaf 2 three times, node, node |
| GreaterThanExpression.GreaterThanRelation | src/main/java/walkingkooka/tree/expression/GreaterThanExpression.java:72-75 | the node's relation holds exactly when the comparison result is positive, which is exactly when less-than-or-equal fails |
| GreaterThanExpression.CanBeEqualOnlyGreaterThan | src/main/java/walkingkooka/tree/expression/GreaterThanExpression.java:79-82 | a GreaterThan node can only equal another GreaterThan node, and that guard is symmetric and reflexive |
| GreaterThanExpression.AppendSymbol | src/main/java/walkingkooka/tree/expression/GreaterThanExpression.java:84-87 | appendSymbol keeps the builder's text and adds the one character ">" |
| NumberConverter.CanConvert | src/main/java/walkingkooka/tree/expression/ExpressionNumberConverterNumberExpressionNumber.java:59-65 | holds exactly when the wrapped converter can convert to the target or to E; so a value the wrapped converter can make an E from is claimed convertible to every type |
| NumberConverter.Convert | src/main/java/walkingkooka/tree/expression/ExpressionNumberConverterNumberExpressionNumber.java:80-88 | when the wrapped converter can convert to the target type, convert is exactly its answer; otherwise convert takes the ExpressionNumber route |
| NumberConverter.ConvertAndCreateExpressionNumber | src/main/java/walkingkooka/tree/expression/ExpressionNumberConverterNumberExpressionNumber.java:96-103 | a failed conversion to E becomes the standard failure for the requested type; a successful one becomes a Left ExpressionNumber holding exactly the E value, or a ClassCast failure when the value is not an E |
| NumberConverter.ExpressionNumberRoundTrip | src/main/java/walkingkooka/tree/expression/ExpressionNumberConverterNumberExpressionNumber.java:105-108 | wrapping an E value as an ExpressionNumber keeps the value, and rebuilds any ExpressionNumber from the value it holds |
| NumberConverter.WrappingKeepsExactness | src/main/java/walkingkooka/tree/expression/ExpressionNumberConverterNumberExpressionNumber.java:59-103 | if the wrapped converter converts exactly what it claims and yields E values, then the wrapper's canConvert holds exactly when its convert succeeds, and no cast fails |
| NumberConverter.FallbackIgnoresTarget | src/main/java/walkingkooka/tree/expression/ExpressionNumberConverterNumberExpressionNumber.java:85-103 | two target types the wrapped converter cannot handle directly get the same ExpressionNumber answer |
| NumberConverter.StringRequestGetsExpressionNumber | src/main/java/walkingkooka/tree/expression/ExpressionNumberConverterNumberExpressionNumber.java:59-103 | a value the wrapped converter turns into a BigDecimal but not into a String is reported convertible to String exactly when the wrapped converter can convert it to BigDecimal, and is converted to an ExpressionNumber |
| NumberConverter.ToStringFormat | src/main/java/walkingkooka/tree/expression/ExpressionNumberConverterNumberExpressionNumber.java:117-120 | toString is the wrapped converter's, then a bar, "ExpressionNumber(", the simple name BigDecimal or Double, and ")" |
| JavaTypes.SimpleName | src/main/java/walkingkooka/tree/expression/ExpressionNumberConverterNumberExpressionNumber.java:119 | a simple name has no '.', and the qualified name is a package prefix ending in '.' (or nothing) followed by it |

## Left out

- Floating point: `Math.pow` on doubles and on longs, and the conversion of a long to a double, are opaque functions of the reducer context. Only the representation of the result, a double, is stated.
- `BigDecimalMath.pow` and rounding under a `MathContext` are an opaque function that may fail with any exception, so which inputs make pow throw (zero to a negative power, an unlimited `MathContext`) is not stated, and no lemma claims the BigInteger power is exact for large results.
- The promotion of mixed operands belongs to the base reducer visitors, which are not part of this model. It is an opaque function of the context: it maps to a common representation for `power`, and to a long or BigInteger pair for `and`.
- `ExpressionFunction2.checkParameterCount(list, n)` and `ExpressionFunction2.string` are not part of this model. `starts-with` is modelled with an exact count of two and a conversion to String through the context.
- The evaluation context is a type parameter. Deriving the lambda's scoped context is an opaque function; how the derived context resolves a reference through the parameter matcher is not part of this model.
- `ExpressionFunction.setName`, `mapParameters` and `filterParameters` build wrapper classes that are not part of this model.
- The Expression base class is not part of this model: parent links, the upward rebuild when a child is replaced, `removeParent` and reference identity. A child's index, which the base class sets from its position under the parent, is not modelled: each child keeps the index it had. `NAME`, derived from the class name, is also left out. `SetChildren` models only the node's own replacement, and assumes the base class rejects a child count other than two.
- The generic `Visitor.accept` layer is not part of this model. Its order, generic start, the node's own accept only on CONTINUE, then generic end, is taken from the visit-order test.
- Exception messages are not modelled as text. Each failure is a datatype holding the values its message mentions.
- The context's `convertOrFail` belongs to a library that is not part of this model. It is assumed to convert, then fail with the conversion's failure on a Right (`Values.ConvertOrFail`).
- `Objects.requireNonNull` checks have no counterpart, since Dafny values are never null.
- ExpressionFunction.CheckParameterCountLoop: the Java loop sums in 32-bit ints. One non-trailing `VARIABLE` parameter is enough for the maximum sum to wrap: for `[VARIABLE, REQUIRED]` with a `VARIABLE` maximum of `Integer.MAX_VALUE`, the sum wraps to `Integer.MIN_VALUE` and Java rejects every count. The model sums unbounded integers and leaves the `VARIABLE` maximum unspecified (`VARIABLE_MAX`).
- ExpressionFunction.CheckCount: for the same reason, a list with a non-trailing `VARIABLE` accepts the counts up to the unwrapped maximum sum (for `[VARIABLE, REQUIRED]`, 1 to `VARIABLE_MAX` + 1), where Java rejects the counts its wrapped sum excludes.
- StartsWithFunction.StartsWith: strings are sequences of Unicode scalar values, where a Java `String` is a sequence of UTF-16 code units. A lone surrogate cannot be expressed, so prefixes that split a surrogate pair are out of scope.
- FunctionParameter.EqualsImpliesEqualHashCodes: the hashes of a name and of a class are supplied as functions, because `String.hashCode` and `Class.hashCode` are not modelled.

=== FILE: expression_function.dfy ===
/**
  The ExpressionFunction contract shared by every function: its constants, the
  argument-count check against the declared parameters, and updating the kinds
  of a parameter list.
 */
module ExpressionFunction {
  import opened Results
  import opened Values
  import opened FunctionParameter

  /** The name of an anonymous function, used by toString. */
  const ANONYMOUS := "<anonymous>"

  /** The optional name of an anonymous function: absent. */
  const ANONYMOUS_NAME: Option<string> := None

  /** The empty argument list. */
  const NO_PARAMETER_VALUES: seq<Value> := []

  /** The IllegalArgumentException checkParameterCount throws: the count received and the bound it broke. */
  datatype ArityError = MissingParameters(got: nat, expected: nat) | TooManyParameters(got: nat, expected: nat)

  /** A function's parameter list may depend on the number of arguments it is given. */
  type ParametersOf = nat -> seq<Parameter>

  // setKinds.........................................................................................................

  /** setKinds: every parameter of the list, in order, with its kinds replaced. */
  function SetKindsAll(parameters: seq<Parameter>, kinds: set<ParameterKind>): (r: seq<Parameter>)
    ensures |r| == |parameters|
    ensures forall i :: 0 <= i < |r| ==> r[i] == SetKinds(parameters[i], kinds)
  {
    seq(|parameters|, i requires 0 <= i < |parameters| => SetKinds(parameters[i], kinds))
  }

  // Arity............................................................................................................

  /** The last declared parameter is VARIABLE, so there is no upper bound on arguments. */
  predicate TrailingVariable(parameters: seq<Parameter>) {
    |parameters| > 0 && parameters[|parameters| - 1].cardinality == Variable
  }

  /** The sum of the parameters' minimum counts. */
  function MinSum(parameters: seq<Parameter>): nat {
    if |parameters| == 0 then 0
    else MinSum(parameters[..|parameters| - 1]) + Min(parameters[|parameters| - 1].cardinality)
  }

  /** The sum of the parameters' maximum counts. */
  function MaxSum(parameters: seq<Parameter>): nat {
    if |parameters| == 0 then 0
    else MaxSum(parameters[..|parameters| - 1]) + Max(parameters[|parameters| - 1].cardinality)
  }

  function Sum(counts: seq<nat>): nat {
    if |counts| == 0 then 0 else Sum(counts[..|counts| - 1]) + counts[|counts| - 1]
  }

  /** Each parameter receives between its minimum and its maximum number of arguments. */
  ghost predicate FitsBounded(parameters: seq<Parameter>, counts: seq<nat>) {
    && |counts| == |parameters|
    && forall i :: 0 <= i < |parameters| ==>
         Min(parameters[i].cardinality) <= counts[i] <= Max(parameters[i].cardinality)
  }

  /**
    The arguments can be shared out among the parameters: each takes between its
    minimum and maximum, except that a trailing VARIABLE takes any number.
   */
  ghost predicate Fits(parameters: seq<Parameter>, counts: seq<nat>) {
    if TrailingVariable(parameters) then
      |counts| == |parameters| && FitsBounded(parameters[..|parameters| - 1], counts[..|counts| - 1])
    else
      FitsBounded(parameters, counts)
  }

  /** A call with `count` arguments is acceptable for these parameters. */
  ghost predicate Accepts(parameters: seq<Parameter>, count: nat) {
    exists counts :: Fits(parameters, counts) && Sum(counts) == count
  }

  /** checkParameterCount for the parameter list it consulted: pass, or the first bound broken. */
  function CheckCount(parameters: seq<Parameter>, count: nat): (r: Outcome<ArityError>)
    ensures r.Pass? <==> Accepts(parameters, count)
    ensures r == Fail(MissingParameters(count, MinSum(parameters))) <==> count < MinSum(parameters)
    ensures r == Fail(TooManyParameters(count, MaxSum(parameters))) <==>
              MinSum(parameters) <= count && !TrailingVariable(parameters) && MaxSum(parameters) < count
  {
    AcceptsIffWithinWindow(parameters, count);
    if count < MinSum(parameters) then
      Fail(MissingParameters(count, MinSum(parameters)))
    else if !TrailingVariable(parameters) && count > MaxSum(parameters) then
      Fail(TooManyParameters(count, MaxSum(parameters)))
    else
      Pass
  }

  /** checkParameterCount(values): the check against parameters(values.size()). */
  function CheckParameterCount(parametersOf: ParametersOf, values: seq<Value>): (r: Outcome<ArityError>)
    ensures r.Pass? <==> Accepts(parametersOf(|values|), |values|)
    ensures r.Fail? && r.error.MissingParameters? <==> |values| < MinSum(parametersOf(|values|))
  {
    CheckCount(parametersOf(|values|), |values|)
  }

  /**
    checkParameterCount as written: one pass over parameters(count) summing the
    minimums and maximums and remembering the last cardinality, then the two
    comparisons.
   */
  method CheckParameterCountLoop(parametersOf: ParametersOf, values: seq<Value>) returns (r: Outcome<ArityError>)
    ensures r.Pass? <==> Accepts(parametersOf(|values|), |values|)
    ensures r == CheckParameterCount(parametersOf, values)
  {
    var min: nat := 0;
    var max: nat := 0;
    var last: Option<Cardinality> := None;
    var count := |values|;
    var parameters := parametersOf(count);
    var i := 0;
    while i < |parameters|
      invariant 0 <= i <= |parameters|
      invariant min == MinSum(parameters[..i])
      invariant max == MaxSum(parameters[..i])
      invariant last == if i == 0 then None else Some(parameters[i - 1].cardinality)
    {
      assert parameters[..i + 1][..i] == parameters[..i];
      var cardinality := parameters[i].cardinality;
      min := min + Min(cardinality);
      max := max + Max(cardinality);
      last := Some(cardinality);
      i := i + 1;
    }
    assert parameters[..i] == parameters;
    var unbounded := last == Some(Variable);
    if count < min {
      r := Fail(MissingParameters(count, min));
    } else if !unbounded && count > max {
      r := Fail(TooManyParameters(count, max));
    } else {
      r := Pass;
    }
    AcceptsIffWithinWindow(parameters, count);
  }

  /** The parameter list consulted is parameters(count) for the actual count, and no other. */
  lemma CheckConsultsParametersOfCount(p1: ParametersOf, p2: ParametersOf, values: seq<Value>)
    requires p1(|values|) == p2(|values|)
    ensures CheckParameterCount(p1, values) == CheckParameterCount(p2, values)
  {
  }

  // The counting argument behind CheckCount..............................................................................

  lemma {:induction false} BoundedSums(parameters: seq<Parameter>, counts: seq<nat>)
    requires FitsBounded(parameters, counts)
    ensures MinSum(parameters) <= Sum(counts) <= MaxSum(parameters)
  {
    if |parameters| > 0 {
      var n := |parameters| - 1;
      assert FitsBounded(parameters[..n], counts[..n]) by {
        forall i | 0 <= i < n
          ensures Min(parameters[..n][i].cardinality) <= counts[..n][i] <= Max(parameters[..n][i].cardinality)
        {
          assert parameters[..n][i] == parameters[i] && counts[..n][i] == counts[i];
        }
      }
      BoundedSums(parameters[..n], counts[..n]);
    }
  }

  lemma {:induction false} BoundedExists(parameters: seq<Parameter>, count: nat)
    requires MinSum(parameters) <= count <= MaxSum(parameters)
    ensures exists counts :: FitsBounded(parameters, counts) && Sum(counts) == count
  {
    if |parameters| == 0 {
      assert FitsBounded(parameters, []) && Sum([]) == count;
    } else {
      var n := |parameters| - 1;
      var prefix, last := parameters[..n], parameters[n];
      var c := last.cardinality;
      assert MinSum(parameters) == MinSum(prefix) + Min(c);
      assert MaxSum(parameters) == MaxSum(prefix) + Max(c);
      WindowNonEmpty(prefix);
      var k: nat := if count - MinSum(prefix) < Max(c) then count - MinSum(prefix) else Max(c);
      assert Min(c) <= k <= Max(c);
      assert MinSum(prefix) <= count - k <= MaxSum(prefix);
      BoundedExists(prefix, count - k);
      var rest: seq<nat> :| FitsBounded(prefix, rest) && Sum(rest) == count - k;
      assert parameters == prefix + [last];
      FitsBoundedExtend(prefix, rest, last, k);
    }
  }

  /** A bounded split of a prefix extends by one count within the next parameter's bounds. */
  lemma FitsBoundedExtend(prefix: seq<Parameter>, rest: seq<nat>, last: Parameter, k: nat)
    requires FitsBounded(prefix, rest)
    requires Min(last.cardinality) <= k <= Max(last.cardinality)
    ensures FitsBounded(prefix + [last], rest + [k])
    ensures Sum(rest + [k]) == Sum(rest) + k
  {
    var counts := rest + [k];
    assert counts[..|rest|] == rest;
  }

  /** The acceptable counts are exactly the window from the minimum sum to the maximum sum. */
  lemma AcceptsIffWithinWindow(parameters: seq<Parameter>, count: nat)
    ensures Accepts(parameters, count) <==>
              MinSum(parameters) <= count && (TrailingVariable(parameters) || count <= MaxSum(parameters))
  {
    if TrailingVariable(parameters) {
      TrailingWindow(parameters, count);
    } else {
      BoundedWindow(parameters, count);
    }
  }

  /** Without a trailing VARIABLE, the window is bounded on both sides. */
  lemma BoundedWindow(parameters: seq<Parameter>, count: nat)
    requires !TrailingVariable(parameters)
    ensures Accepts(parameters, count) <==> MinSum(parameters) <= count <= MaxSum(parameters)
  {
    if Accepts(parameters, count) {
      var counts :| Fits(parameters, counts) && Sum(counts) == count;
      BoundedSums(parameters, counts);
    }
    if MinSum(parameters) <= count <= MaxSum(parameters) {
      BoundedExists(parameters, count);
    }
  }

  /** With a trailing VARIABLE, every count from the minimum sum upward is accepted. */
  lemma TrailingWindow(parameters: seq<Parameter>, count: nat)
    requires TrailingVariable(parameters)
    ensures Accepts(parameters, count) <==> MinSum(parameters) <= count
  {
    var n := |parameters| - 1;
    assert MinSum(parameters) == MinSum(parameters[..n]);
    if Accepts(parameters, count) {
      var counts :| Fits(parameters, counts) && Sum(counts) == count;
      TrailingSumAtLeastMin(parameters, counts);
    }
    if MinSum(parameters) <= count {
      TrailingReachesCount(parameters, count);
    }
  }

  lemma TrailingSumAtLeastMin(parameters: seq<Parameter>, counts: seq<nat>)
    requires TrailingVariable(parameters) && Fits(parameters, counts)
    ensures MinSum(parameters) <= Sum(counts)
  {
    var n := |parameters| - 1;
    assert MinSum(parameters) == MinSum(parameters[..n]);
    BoundedSums(parameters[..n], counts[..n]);
  }

  lemma TrailingReachesCount(parameters: seq<Parameter>, count: nat)
    requires TrailingVariable(parameters) && MinSum(parameters) <= count
    ensures Accepts(parameters, count)
  {
    var n := |parameters| - 1;
    var prefix := parameters[..n];
    assert MinSum(parameters) == MinSum(prefix);
    WindowNonEmpty(prefix);
    BoundedExists(prefix, MinSum(prefix));
    var rest: seq<nat> :| FitsBounded(prefix, rest) && Sum(rest) == MinSum(prefix);
    var extra: nat := count - MinSum(prefix);
    var counts: seq<nat> := rest + [extra];
    assert counts[..n] == rest;
    assert Sum(counts) == Sum(rest) + extra;
    assert Fits(parameters, counts);
  }

  /** Every parameter's minimum is at most its maximum, so the bounded window is never empty. */
  lemma {:induction false} WindowNonEmpty(parameters: seq<Parameter>)
    ensures MinSum(parameters) <= MaxSum(parameters)
  {
    if |parameters| > 0 {
      WindowNonEmpty(parameters[..|parameters| - 1]);
    }
  }

  // The accept/reject table................................................................................................

  /** A function without parameters accepts exactly zero arguments. */
  lemma NoParametersAcceptOnlyZero(count: nat)
    ensures CheckCount([], count).Pass? <==> count == 0
    ensures count > 0 ==> CheckCount([], count) == Fail(TooManyParameters(count, 0))
  {
  }

  /** The verdicts of the checkParameterCount tests on lists of one kind of parameter. */
  lemma ArityTableSingleKind(required: Parameter, optional: Parameter, variable: Parameter)
    requires required.cardinality == Required
    requires optional.cardinality == Optional
    requires variable.cardinality == Variable
    ensures CheckCount([required], 1).Pass? && CheckCount([required], 2).Fail?
    ensures CheckCount([required, required], 2).Pass?
    ensures CheckCount([required, required, required], 3).Pass?
    ensures CheckCount([optional], 0).Pass? && CheckCount([optional], 1).Pass?
    ensures CheckCount([variable], 0).Pass? && CheckCount([variable], 1).Pass? && CheckCount([variable], 2).Pass?
    ensures CheckCount([optional, optional], 0).Pass? && CheckCount([optional, optional], 1).Pass?
    ensures CheckCount([optional, optional], 2).Pass? && CheckCount([optional, optional], 3).Fail?
  {
    SingleSums(required);
    SingleSums(optional);
    SingleSums(variable);
    PairSums(required, required);
    PairSums(optional, optional);
    var three := [required, required, required];
    assert three[..2] == [required, required];
  }

  /** The verdicts of the checkParameterCount tests on a REQUIRED parameter followed by another kind. */
  lemma ArityTableMixed(required: Parameter, optional: Parameter, variable: Parameter)
    requires required.cardinality == Required
    requires optional.cardinality == Optional
    requires variable.cardinality == Variable
    ensures CheckCount([required, optional], 0).Fail? && CheckCount([required, optional], 1).Pass?
    ensures CheckCount([required, optional], 2).Pass? && CheckCount([required, optional], 3).Fail?
    ensures CheckCount([required, variable], 0).Fail?
    ensures CheckCount([required, variable], 1).Pass? && CheckCount([required, variable], 2).Pass?
    ensures CheckCount([required, variable], 3).Pass?
  {
    PairSums(required, optional);
    PairSums(required, variable);
  }

  lemma SingleSums(p: Parameter)
    ensures MinSum([p]) == Min(p.cardinality) && MaxSum([p]) == Max(p.cardinality)
    ensures TrailingVariable([p]) <==> p.cardinality == Variable
  {
    assert [p][..0] == [];
  }

  lemma PairSums(p: Parameter, q: Parameter)
    ensures MinSum([p, q]) == Min(p.cardinality) + Min(q.cardinality)
    ensures MaxSum([p, q]) == Max(p.cardinality) + Max(q.cardinality)
    ensures TrailingVariable([p, q]) <==> q.cardinality == Variable
  {
    assert [p, q][..1] == [p];
    SingleSums(p);
  }

  /** REQUIRED, OPTIONAL, VARIABLE: every count from one upward is accepted, zero is not. */
  lemma RequiredOptionalVariable(required: Parameter, optional: Parameter, variable: Parameter, count: nat)
    requires required.cardinality == Required
    requires optional.cardinality == Optional
    requires variable.cardinality == Variable
    ensures CheckCount([required, optional, variable], count).Pass? <==> count >= 1
  {
    assert [required, optional, variable][..2] == [required, optional];
    assert [required, optional][..1] == [required];
    assert [required][..0] == [];
    assert MinSum([required]) == 1;
    assert MinSum([required, optional]) == 1;
    assert MinSum([required, optional, variable]) == 1;
  }

  // Parameter lookup....................................................................................................

  /** The IndexOutOfBoundsException of a parameter lookup. */
  datatype IndexError = IndexOutOfBounds(index: int)

  /**
    parameter(index): the declared parameter at the index; past the end, a
    trailing VARIABLE parameter answers for every further argument.
   */
  function ParameterAt(parameters: seq<Parameter>, index: int): (r: Result<Parameter, IndexError>)
    ensures r.Success? <==> 0 <= index && (index < |parameters| || TrailingVariable(parameters))
    ensures r.Success? && index < |parameters| ==> r.value == parameters[index]
    ensures r.Success? && index >= |parameters| ==> r.value == parameters[|parameters| - 1] && r.value.cardinality == Variable
    ensures r.Failure? ==> r.error == IndexOutOfBounds(index)
  {
    if index < 0 then Failure(IndexOutOfBounds(index))
    else if index < |parameters| then Success(parameters[index])
    else if TrailingVariable(parameters) then Success(parameters[|parameters| - 1])
    else Failure(IndexOutOfBounds(index))
  }

  /** VARIABLE may only be the last parameter. */
  predicate VariableOnlyLast(parameters: seq<Parameter>) {
    forall i :: 0 <= i < |parameters| - 1 ==> parameters[i].cardinality != Variable
  }

  lemma {:induction false} MaxSumWithoutVariable(parameters: seq<Parameter>)
    requires forall i :: 0 <= i < |parameters| ==> parameters[i].cardinality != Variable
    ensures MaxSum(parameters) <= |parameters|
  {
    if |parameters| > 0 {
      var prefix := parameters[..|parameters| - 1];
      assert forall i :: 0 <= i < |prefix| ==> prefix[i] == parameters[i];
      MaxSumWithoutVariable(prefix);
    }
  }

  /** Once a call passes the count check, every argument has a declared parameter. */
  lemma AcceptedArgumentsHaveParameters(parameters: seq<Parameter>, count: nat)
    requires VariableOnlyLast(parameters)
    requires CheckCount(parameters, count).Pass?
    ensures forall i :: 0 <= i < count ==> ParameterAt(parameters, i).Success?
  {
    if !TrailingVariable(parameters) {
      MaxSumWithoutVariable(parameters);
    }
  }

  /** setKinds changes neither which counts are accepted nor what equals sees. */
  lemma SetKindsPreservesArity(parameters: seq<Parameter>, kinds: set<ParameterKind>, count: nat)
    ensures CheckCount(SetKindsAll(parameters, kinds), count) == CheckCount(parameters, count)
    ensures forall i :: 0 <= i < |parameters| ==> Equals(SetKindsAll(parameters, kinds)[i], parameters[i])
    ensures SetKindsAll(SetKindsAll(parameters, kinds), kinds) == SetKindsAll(parameters, kinds)
  {
    SumsFollowCardinalities(parameters, SetKindsAll(parameters, kinds));
  }

  /** The sums and the trailing flag depend only on the cardinalities. */
  lemma {:induction false} SumsFollowCardinalities(p: seq<Parameter>, q: seq<Parameter>)
    requires |p| == |q|
    requires forall i :: 0 <= i < |p| ==> p[i].cardinality == q[i].cardinality
    ensures MinSum(p) == MinSum(q) && MaxSum(p) == MaxSum(q)
    ensures TrailingVariable(p) == TrailingVariable(q)
  {
    if |p| > 0 {
      var n := |p| - 1;
      assert forall i :: 0 <= i < n ==> p[..n][i] == p[i] && q[..n][i] == q[i];
      SumsFollowCardinalities(p[..n], q[..n]);
    }
  }
}

=== FILE: false_function.dfy ===
/**
  FalseExpressionFunction: returns false, reading neither its arguments nor its
  context.
 */
module FalseFunction {
  import opened Values

  const NAME := "false"

  function Apply(values: seq<Value>, context: FunctionContext): (r: bool)
    ensures !r
  {
    false
  }

  function Name(): string {
    NAME
  }

  function ToString(): string {
    Name()
  }

  /** Any two calls agree, whatever their arguments and contexts. */
  lemma ApplyIgnoresArgumentsAndContext(v1: seq<Value>, v2: seq<Value>, c1: FunctionContext, c2: FunctionContext)
    ensures Apply(v1, c1) == Apply(v2, c2) == false
  {
  }

  /** The name is "false" and toString is the name. */
  lemma NameAndToString()
    ensures Name() == "false" && ToString() == Name()
  {
  }
}

=== FILE: function_parameter.dfy ===
/**
  ExpressionFunctionParameter: one declared parameter of a function, with its
  name, its declared type, its cardinality and the kinds that tell the caller
  how to prepare its argument.

  Equality, hashing and printing use only the name and the type.
 */
module FunctionParameter {
  import opened Results
  import opened JavaTypes
  import opened Values

  /**
    How many arguments one parameter takes. The maximum of VARIABLE only
    matters when it is not the last parameter, and is left unspecified.
   */
  datatype Cardinality = Required | Optional | Variable

  const VARIABLE_MAX: nat

  function Min(c: Cardinality): nat {
    match c
    case Required => 1
    case Optional => 0
    case Variable => 0
  }

  function Max(c: Cardinality): nat {
    match c
    case Required => 1
    case Optional => 1
    case Variable => VARIABLE_MAX
  }

  /**
    ExpressionFunctionParameterKind: how an argument is prepared before the call.
    A kind is known here only by its name; the enum's constants are not modelled.
   */
  datatype ParameterKind = ParameterKind(name: string)

  datatype Parameter = Parameter(name: string, parameterType: JavaType, cardinality: Cardinality, kinds: set<ParameterKind>)

  /** A parameter with the given name, type and cardinality, and no kinds. */
  function With(name: string, parameterType: JavaType, cardinality: Cardinality): (p: Parameter)
    ensures p.name == name && p.parameterType == parameterType && p.cardinality == cardinality
    ensures p.kinds == {}
  {
    Parameter(name, parameterType, cardinality, {})
  }

  /** The same parameter with its kinds replaced. */
  function SetKinds(p: Parameter, kinds: set<ParameterKind>): (r: Parameter)
    ensures r.kinds == kinds
    ensures r.name == p.name && r.parameterType == p.parameterType && r.cardinality == p.cardinality
  {
    p.(kinds := kinds)
  }

  // Object.......................................................................................................

  /** equals: same name and same type. */
  predicate Equals(p: Parameter, q: Parameter) {
    p.name == q.name && p.parameterType == q.parameterType
  }

  /** equals is an equivalence, and it ignores cardinality and kinds. */
  lemma EqualsIsEquivalence(p: Parameter, q: Parameter, s: Parameter, kinds: set<ParameterKind>)
    ensures Equals(p, p)
    ensures Equals(p, q) ==> Equals(q, p)
    ensures Equals(p, q) && Equals(q, s) ==> Equals(p, s)
    ensures Equals(p, SetKinds(p, kinds))
    ensures Equals(p, q) <==> (p.name, p.parameterType) == (q.name, q.parameterType)
  {
  }

  /** Java's int arithmetic: wrap an integer into the 32-bit two's-complement range. */
  function Int32(n: int): (r: int)
    ensures -0x8000_0000 <= r < 0x8000_0000
    ensures (r - n) % 0x1_0000_0000 == 0
  {
    var m := n % 0x1_0000_0000;
    if m < 0x8000_0000 then m else m - 0x1_0000_0000
  }

  /**
    hashCode: Objects.hash(name, type), i.e. 31 * (31 + hash(name)) + hash(type)
    in int arithmetic. The hashes of a name and of a class are supplied.
   */
  function HashCode(p: Parameter, nameHash: string -> int, typeHash: JavaType -> int): int {
    Int32(31 * (31 + nameHash(p.name)) + typeHash(p.parameterType))
  }

  /** Equal parameters have equal hash codes. */
  lemma EqualsImpliesEqualHashCodes(p: Parameter, q: Parameter, nameHash: string -> int, typeHash: JavaType -> int)
    requires Equals(p, q)
    ensures HashCode(p, nameHash, typeHash) == HashCode(q, nameHash, typeHash)
    ensures -0x8000_0000 <= HashCode(p, nameHash, typeHash) < 0x8000_0000
  {
  }

  /** toString: the type's name, a space, then the parameter's name. */
  function ToString(p: Parameter): (r: string)
    ensures |r| == |p.parameterType.name| + 1 + |p.name|
    ensures r[..|p.parameterType.name|] == p.parameterType.name
    ensures r[|p.parameterType.name|] == ' '
    ensures r[|p.parameterType.name| + 1..] == p.name
  {
    p.parameterType.name + " " + p.name
  }

  /**
    Class names hold no spaces, so toString tells parameters apart exactly as
    equals does.
   */
  lemma ToStringDeterminesEquals(p: Parameter, q: Parameter)
    requires ' ' !in p.parameterType.name && ' ' !in q.parameterType.name
    ensures ToString(p) == ToString(q) <==> Equals(p, q)
  {
  }

  // Conversion......................................................................................................

  /** convert: the context's conversion of the value to this parameter's type. */
  function ConvertValue(p: Parameter, value: Value, context: FunctionContext): Either<Value, ConvertError> {
    context.convert(value, p.parameterType)
  }

  /** convertOrFail: the same conversion, failing instead of returning a Right. */
  function ConvertValueOrFail(p: Parameter, value: Value, context: FunctionContext): Result<Value, ConvertError> {
    ConvertOrFail(context, value, p.parameterType)
  }

  /**
    Conversion depends on the parameter only through its type, and
    convertOrFail succeeds with exactly the values convert returns.
   */
  lemma ConversionFollowsType(p: Parameter, q: Parameter, value: Value, context: FunctionContext, target: Value)
    ensures p.parameterType == q.parameterType ==> ConvertValue(p, value, context) == ConvertValue(q, value, context)
    ensures ConvertValue(p, value, context) == context.convert(value, p.parameterType)
    ensures ConvertValueOrFail(p, value, context) == Success(target) <==> ConvertValue(p, value, context) == Left(target)
    ensures ConvertValueOrFail(p, value, context).Failure? <==> ConvertValue(p, value, context).Right?
  {
  }
}

=== FILE: greater_than_expression.dfy ===
/**
  GreaterThanExpression: the binary comparison node "left > right" of an
  expression tree, with the child editing, visitor and printing hooks it
  defines. Other node kinds appear only as the string leaves its children may be.
 */
module GreaterThanExpression {
  import opened Results

  /** The index of a node that has no parent. */
  const NO_INDEX := -1

  const SYMBOL := ">"

  /** A node knows its index within its parent (NO_INDEX when detached). */
  datatype Expression =
    | StringExpression(index: int, text: string)
    | GreaterThan(index: int, left: Expression, right: Expression)

  /** with(left, right): a detached node holding exactly the given children. */
  function With(left: Expression, right: Expression): (r: Expression)
    ensures r.GreaterThan? && r.index == NO_INDEX
    ensures Children(r) == [left, right]
  {
    GreaterThan(NO_INDEX, left, right)
  }

  function Children(e: Expression): (r: seq<Expression>)
    ensures e.GreaterThan? ==> |r| == 2
    ensures e.StringExpression? ==> r == []
  {
    match e
    case StringExpression(_, _) => []
    case GreaterThan(_, left, right) => [left, right]
  }

  /** replace1: a GreaterThanExpression, whatever node it replaces. */
  function Replace1(index: int, left: Expression, right: Expression): (r: Expression)
    ensures r.GreaterThan? && r.index == index
    ensures Children(r) == [left, right]
  {
    GreaterThan(index, left, right)
  }

  /** A binary node takes exactly two children. */
  datatype ChildrenError = ChildCount(got: nat, expected: nat)

  /** setChildren: the count check, then replace1 at this node's own index. */
  function SetChildren(e: Expression, children: seq<Expression>): (r: Result<Expression, ChildrenError>)
    requires e.GreaterThan?
    ensures r.Failure? <==> |children| != 2
    ensures r.Failure? ==> r.error == ChildCount(|children|, 2)
    ensures r.Success? ==> r.value.GreaterThan? && r.value.index == e.index && Children(r.value) == children
  {
    if |children| != 2 then Failure(ChildCount(|children|, 2))
    else Success(Replace1(e.index, children[0], children[1]))
  }

  /** Setting a node's own children gives back the node; a second edit overrides the first. */
  lemma SetChildrenRoundTrip(e: Expression, first: seq<Expression>, second: seq<Expression>)
    requires e.GreaterThan?
    ensures SetChildren(e, Children(e)) == Success(e)
    ensures SetChildren(e, first).Success? ==> SetChildren(SetChildren(e, first).value, second) == SetChildren(e, second)
  {
  }

  // Visitor ..........................................................................................................

  datatype Visiting = Continue | Skip

  /**
    An ExpressionVisitor: the generic startVisit(Expression) and the
    GreaterThanExpression-specific startVisit. The end hooks return nothing and
    appear only as events.
   */
  datatype Visitor = Visitor(startExpression: Expression -> Visiting, startGreaterThan: Expression -> Visiting)

  /** What a visitor sees, in order. */
  datatype Event =
    | StartExpression(node: Expression)
    | StartGreaterThan(node: Expression)
    | VisitString(node: Expression)
    | EndGreaterThan(node: Expression)
    | EndExpression(node: Expression)

  /**
    Visitor.accept(node): the generic start; the node's own accept only when it
    answers CONTINUE; the generic end always.
   */
  function Accept(v: Visitor, e: Expression): (r: seq<Event>)
    ensures |r| >= 2 && r[0] == StartExpression(e) && r[|r| - 1] == EndExpression(e)
    decreases e, 1
  {
    [StartExpression(e)] + (if v.startExpression(e) == Continue then NodeAccept(v, e) else []) + [EndExpression(e)]
  }

  /**
    The node's accept. GreaterThanExpression: the specific start; both children,
    left then right, only when it answers CONTINUE; the specific end always. A
    string leaf is visited once.
   */
  function NodeAccept(v: Visitor, e: Expression): (r: seq<Event>)
    decreases e, 0
  {
    match e
    case StringExpression(_, _) => [VisitString(e)]
    case GreaterThan(_, left, right) =>
      [StartGreaterThan(e)]
      + (if v.startGreaterThan(e) == Continue then Accept(v, left) + Accept(v, right) else [])
      + [EndGreaterThan(e)]
  }

  /** The hook numbering of the visitor test: 1 and 2 generic, 3 and 4 specific, 5 a string leaf. */
  function Code(event: Event): char {
    match event
    case StartExpression(_) => '1'
    case EndExpression(_) => '2'
    case StartGreaterThan(_) => '3'
    case EndGreaterThan(_) => '4'
    case VisitString(_) => '5'
  }

  /** The codes of a trace, in order. */
  function Codes(trace: seq<Event>): string {
    seq(|trace|, i requires 0 <= i < |trace| => Code(trace[i]))
  }

  /** The nodes of a trace, in order. */
  function Nodes(trace: seq<Event>): seq<Expression> {
    seq(|trace|, i requires 0 <= i < |trace| => trace[i].node)
  }

  const ALWAYS_CONTINUE := Visitor(_ => Continue, _ => Continue)

  /**
    The visit of a node over two string leaves when every hook continues:
    codes "1315215242", and the nodes node, node, leaf 1 three times, leaf 2
    three times, node, node.
   */
  lemma VisitOrder(index: int, text1: Expression, text2: Expression)
    requires text1.StringExpression? && text2.StringExpression?
    ensures var node := GreaterThan(index, text1, text2);
            var trace := Accept(ALWAYS_CONTINUE, node);
            Codes(trace) == "1315215242" &&
            Nodes(trace) == [node, node, text1, text1, text1, text2, text2, text2, node, node]
  {
    var trace := NodeVisit(index, text1, text2);
    TraceCodes(trace);
  }

  /** The codes of the ten events of a binary node over two leaves. */
  lemma TraceCodes(trace: seq<Event>)
    requires |trace| == 10
    requires trace[0].StartExpression? && trace[1].StartGreaterThan?
    requires trace[2].StartExpression? && trace[3].VisitString? && trace[4].EndExpression?
    requires trace[5].StartExpression? && trace[6].VisitString? && trace[7].EndExpression?
    requires trace[8].EndGreaterThan? && trace[9].EndExpression?
    ensures Codes(trace) == "1315215242"
  {
    var codes := Codes(trace);
    assert codes[0] == '1' && codes[1] == '3' && codes[2] == '1' && codes[3] == '5' && codes[4] == '2';
    assert codes[5] == '1' && codes[6] == '5' && codes[7] == '2' && codes[8] == '4' && codes[9] == '2';
  }

  /** With every hook continuing, the events of a node over two string leaves. */
  lemma NodeVisit(index: int, text1: Expression, text2: Expression) returns (trace: seq<Event>)
    requires text1.StringExpression? && text2.StringExpression?
    ensures var node := GreaterThan(index, text1, text2);
            trace == Accept(ALWAYS_CONTINUE, node) &&
            trace == [StartExpression(node), StartGreaterThan(node),
                      StartExpression(text1), VisitString(text1), EndExpression(text1),
                      StartExpression(text2), VisitString(text2), EndExpression(text2),
                      EndGreaterThan(node), EndExpression(node)]
  {
    var node := GreaterThan(index, text1, text2);
    LeafVisit(text1);
    LeafVisit(text2);
    trace := Accept(ALWAYS_CONTINUE, node);
    assert NodeAccept(ALWAYS_CONTINUE, node) ==
      [StartGreaterThan(node)] + Accept(ALWAYS_CONTINUE, text1) + Accept(ALWAYS_CONTINUE, text2) + [EndGreaterThan(node)];
  }

  /** With every hook continuing, a string leaf is started, visited and ended. */
  lemma LeafVisit(leaf: Expression)
    requires leaf.StringExpression?
    ensures Accept(ALWAYS_CONTINUE, leaf) == [StartExpression(leaf), VisitString(leaf), EndExpression(leaf)]
  {
  }

  /** A node that answers SKIP is started and ended but its children are not visited. */
  lemma SkipVisitsNoChildren(v: Visitor, e: Expression)
    requires e.GreaterThan?
    requires v.startExpression(e) == Continue && v.startGreaterThan(e) == Skip
    ensures Accept(v, e) == [StartExpression(e), StartGreaterThan(e), EndGreaterThan(e), EndExpression(e)]
  {
  }

  /** Starts minus ends over a trace. */
  function Balance(trace: seq<Event>): int {
    if trace == [] then 0
    else
      var b := Balance(trace[1..]);
      match trace[0]
      case StartExpression(_) => b + 1
      case StartGreaterThan(_) => b + 1
      case EndExpression(_) => b - 1
      case EndGreaterThan(_) => b - 1
      case VisitString(_) => b
  }

  lemma {:induction false} BalanceAppend(a: seq<Event>, b: seq<Event>)
    ensures Balance(a + b) == Balance(a) + Balance(b)
    decreases |a|
  {
    if a == [] {
      assert a + b == b;
    } else {
      assert (a + b)[0] == a[0];
      assert (a + b)[1..] == a[1..] + b;
      BalanceAppend(a[1..], b);
    }
  }

  /** A start event, anything, and an end event: balanced exactly when the middle is. */
  lemma Bracket(open: Event, middle: seq<Event>, close: Event)
    requires open.StartExpression? || open.StartGreaterThan?
    requires close.EndExpression? || close.EndGreaterThan?
    ensures Balance([open] + middle + [close]) == Balance(middle)
  {
    BalanceAppend([open], middle);
    BalanceAppend([open] + middle, [close]);
    assert Balance([open]) == 1 by {
      assert [open][1..] == [];
    }
    assert Balance([close]) == -1 by {
      assert [close][1..] == [];
    }
  }

  /**
    Whatever the visitor answers, every start has its end: a visit is balanced,
    because accept calls endVisit whether or not startVisit continued.
   */
  lemma {:induction false} AcceptIsBalanced(v: Visitor, e: Expression)
    ensures Balance(Accept(v, e)) == 0
    decreases e, 1
  {
    var inner := if v.startExpression(e) == Continue then NodeAccept(v, e) else [];
    NodeAcceptIsBalanced(v, e);
    assert Balance(inner) == 0;
    Bracket(StartExpression(e), inner, EndExpression(e));
  }

  lemma {:induction false} NodeAcceptIsBalanced(v: Visitor, e: Expression)
    ensures Balance(NodeAccept(v, e)) == 0
    decreases e, 0
  {
    match e {
      case StringExpression(_, _) =>
        assert NodeAccept(v, e) == [VisitString(e)];
      case GreaterThan(_, left, right) =>
        AcceptIsBalanced(v, left);
        AcceptIsBalanced(v, right);
        BalanceAppend(Accept(v, left), Accept(v, right));
        var children := if v.startGreaterThan(e) == Continue then Accept(v, left) + Accept(v, right) else [];
        assert Balance(children) == 0;
        Bracket(StartGreaterThan(e), children, EndGreaterThan(e));
    }
  }

  // Evaluation .......................................................................................................

  /** ComparisonRelation: how a compareTo result decides a comparison. */
  datatype ComparisonRelation = EQ | NE | GT | GTE | LT | LTE

  /** ComparisonRelation.test: whether a compareTo result satisfies the relation. */
  function Holds(relation: ComparisonRelation, compareResult: int): bool {
    match relation
    case EQ => compareResult == 0
    case NE => compareResult != 0
    case GT => compareResult > 0
    case GTE => compareResult >= 0
    case LT => compareResult < 0
    case LTE => compareResult <= 0
  }

  function Relation(e: Expression): ComparisonRelation
    requires e.GreaterThan?
  {
    GT
  }

  /** The node holds exactly when left compares above right, and fails on equal or smaller. */
  lemma GreaterThanRelation(e: Expression, compareResult: int)
    requires e.GreaterThan?
    ensures Holds(Relation(e), compareResult) <==> compareResult > 0
    ensures Holds(Relation(e), compareResult) <==> !Holds(LTE, compareResult)
  {
  }

  // Object ...........................................................................................................

  /** canBeEqual: only another GreaterThanExpression. */
  predicate CanBeEqual(e: Expression, other: Expression)
    requires e.GreaterThan?
  {
    other.GreaterThan?
  }

  /** A GreaterThan never equals a node of another kind, and any two GreaterThans may be compared further. */
  lemma CanBeEqualOnlyGreaterThan(e: Expression, other: Expression)
    requires e.GreaterThan?
    ensures CanBeEqual(e, other) <==> other.GreaterThan?
    ensures CanBeEqual(e, other) ==> CanBeEqual(other, e)
    ensures CanBeEqual(e, e)
  {
  }

  /** appendSymbol: the builder grows by the one-character symbol ">". */
  function AppendSymbol(e: Expression, b: string): (r: string)
    requires e.GreaterThan?
    ensures |r| == |b| + 1 && r[..|b|] == b && r[|b|] == '>'
  {
    b + SYMBOL
  }
}

=== FILE: java_types.dfy ===
/**
  java.lang.Class as the expression core uses it: a parameter's declared type,
  a function's return type and a converter's target type. Only the two names a
  class reports are modelled.
 */
module JavaTypes {

  /** A top-level class identified by its fully qualified name, e.g. "java.math.BigDecimal". */
  datatype JavaType = JavaType(name: string)

  const JAVA_LANG := "java.lang."
  const JAVA_MATH := "java.math."
  const EXPRESSION_PACKAGE := "walkingkooka.tree.expression."

  const BIG_DECIMAL := JavaType(JAVA_MATH + "BigDecimal")
  const DOUBLE := JavaType(JAVA_LANG + "Double")
  const STRING := JavaType(JAVA_LANG + "String")
  const EXPRESSION_NUMBER := JavaType(EXPRESSION_PACKAGE + "ExpressionNumber")

  /**
    The segment of a qualified name after its last '.', or the whole name when it
    has no '.'.
   */
  function LastSegment(s: string): (r: string)
    ensures '.' !in r
    ensures |r| <= |s| && s[|s| - |r|..] == r
    ensures r == s || s[|s| - |r| - 1] == '.'
  {
    if |s| == 0 then ""
    else if s[|s| - 1] == '.' then ""
    else LastSegment(s[..|s| - 1]) + [s[|s| - 1]]
  }

  /** Class.getSimpleName() of a top-level class. */
  function SimpleName(t: JavaType): (r: string)
    ensures '.' !in r
    ensures exists p :: t.name == p + r && (p == "" || p[|p| - 1] == '.')
  {
    var r := LastSegment(t.name);
    var p := t.name[..|t.name| - |r|];
    assert t.name == p + r;
    r
  }

  /** The simple name of a class declared in a package is the name after the package prefix. */
  lemma SimpleNameInPackage(package: string, simple: string)
    requires |package| > 0 && package[|package| - 1] == '.'
    requires '.' !in simple
    ensures SimpleName(JavaType(package + simple)) == simple
  {
    SuffixAfterDot(package, simple);
  }

  lemma SimpleNamesOfNumberTypes()
    ensures SimpleName(BIG_DECIMAL) == "BigDecimal"
    ensures SimpleName(DOUBLE) == "Double"
  {
    SimpleNameInPackage(JAVA_MATH, "BigDecimal");
    SimpleNameInPackage(JAVA_LANG, "Double");
  }

  lemma SimpleNameOfExpressionNumber()
    ensures SimpleName(EXPRESSION_NUMBER) == "ExpressionNumber"
  {
    SimpleNameInPackage(EXPRESSION_PACKAGE, "ExpressionNumber");
  }

  /** A dot-free suffix that follows a '.' is exactly the last segment. */
  lemma {:induction false} SuffixAfterDot(p: string, s: string)
    requires |p| > 0 && p[|p| - 1] == '.'
    requires '.' !in s
    ensures LastSegment(p + s) == s
    decreases |s|
  {
    if |s| == 0 {
      assert p + s == p;
    } else {
      var q := p + s;
      assert q[..|q| - 1] == p + s[..|s| - 1];
      assert q[|q| - 1] == s[|s| - 1];
      SuffixAfterDot(p, s[..|s| - 1]);
      assert s[..|s| - 1] + [s[|s| - 1]] == s;
    }
  }
}

=== FILE: lambda_function.dfy ===
/**
  LambdaExpressionFunction: an anonymous function with a fixed parameter list.
  Applying it checks the argument count, then runs its body in a context
  derived from the parameters, the argument values and the parameter matcher.

  The evaluation context is a type parameter; deriving the scoped context is a
  collaborator passed to Apply.
 */
module LambdaFunction {
  import opened Results
  import opened JavaTypes
  import opened Values
  import opened FunctionParameter
  import opened ExpressionFunction

  /** Tests a reference against a parameter name, e.g. a label against a parameter's name. */
  type ParameterMatcher = (string, Reference) -> bool

  /** What the derived context is built from: the parameters, the argument values and the matcher. */
  datatype Scope = Scope(parameters: seq<Parameter>, values: seq<Value>, matcher: ParameterMatcher)

  /** ExpressionPurityContext: whether a named function is pure. */
  datatype PurityContext = PurityContext(isPureFunction: string -> bool)

  datatype Lambda<!C, T> = Lambda(
    pure: bool,
    parameters: seq<Parameter>,
    returnType: JavaType,
    body: C -> T,
    matcher: ParameterMatcher
  )

  function Name<C, T>(f: Lambda<C, T>): Option<string> {
    ANONYMOUS_NAME
  }

  function IsPure<C, T>(f: Lambda<C, T>, context: PurityContext): bool {
    f.pure
  }

  function Parameters<C, T>(f: Lambda<C, T>, count: nat): seq<Parameter> {
    f.parameters
  }

  function ReturnType<C, T>(f: Lambda<C, T>): JavaType {
    f.returnType
  }

  function ToString<C, T>(f: Lambda<C, T>): string {
    ANONYMOUS
  }

  /**
    apply: the count check against parameters(count) first; only a call that
    passes it runs the body, once, in the context derived for this call.
   */
  function Apply<C, T>(f: Lambda<C, T>, values: seq<Value>, context: C, derive: (C, Scope) -> C): (r: Result<T, ArityError>)
    ensures r.Success? <==> Accepts(f.parameters, |values|)
    ensures r.Failure? ==> Fail(r.error) == CheckCount(f.parameters, |values|)
    ensures r.Success? ==> r.value == f.body(derive(context, Scope(f.parameters, values, f.matcher)))
  {
    match CheckParameterCount((n: nat) => Parameters(f, n), values)
    case Fail(e) => Failure(e)
    case Pass => Success(f.body(derive(context, Scope(f.parameters, values, f.matcher))))
  }

  /** The anonymous name and toString, the construction-time purity, parameters and return type. */
  lemma LambdaMetadata<C, T>(f: Lambda<C, T>, p1: PurityContext, p2: PurityContext, m: nat, n: nat)
    ensures Name(f).None? && ToString(f) == "<anonymous>"
    ensures IsPure(f, p1) == IsPure(f, p2) == f.pure
    ensures Parameters(f, m) == Parameters(f, n) == f.parameters
    ensures ReturnType(f) == f.returnType
  {
  }

  /** A count the parameters reject fails the same way whatever the body is: the body is never run. */
  lemma RejectedCountIgnoresBody<C, T>(f: Lambda<C, T>, body: C -> T, values: seq<Value>, context: C, derive: (C, Scope) -> C)
    requires !Accepts(f.parameters, |values|)
    ensures Apply(f, values, context, derive) == Apply(f.(body := body), values, context, derive)
    ensures Apply(f, values, context, derive).Failure?
  {
  }

  /** The body sees the caller's context only through the context derived for the call. */
  lemma BodySeesDerivedContext<C, T>(f: Lambda<C, T>, values: seq<Value>, c1: C, c2: C, derive: (C, Scope) -> C)
    requires derive(c1, Scope(f.parameters, values, f.matcher)) == derive(c2, Scope(f.parameters, values, f.matcher))
    ensures Apply(f, values, c1, derive) == Apply(f, values, c2, derive)
  {
  }

  /** A lambda declaring one REQUIRED parameter given two arguments fails with too many parameters. */
  lemma OneRequiredGivenTwo<C, T>(f: Lambda<C, T>, a: Value, b: Value, context: C, derive: (C, Scope) -> C)
    requires |f.parameters| == 1 && f.parameters[0].cardinality == Required
    ensures Apply(f, [a, b], context, derive) == Failure(TooManyParameters(2, 1))
  {
    var p := f.parameters;
    assert p[..0] == [];
    assert MinSum(p) == MinSum([]) + 1;
    assert MaxSum(p) == MaxSum([]) + 1;
    assert !TrailingVariable(p);
    assert CheckCount(p, 2) == Fail(TooManyParameters(2, 1));
  }
}

=== FILE: number_converter.dfy ===
/**
  ExpressionNumberConverterNumberExpressionNumber: a converter wrapping another
  one. A conversion the wrapped converter can do itself is passed through;
  otherwise the value is converted to the intermediate number type E (BigDecimal
  or Double) and wrapped as an ExpressionNumber.
 */
module NumberConverter {
  import opened Results
  import opened JavaTypes
  import opened Numbers
  import opened Values

  /** A Converter: whether it can convert a value to a type, the conversion itself, and its toString. */
  datatype Converter = Converter(
    canConvert: (Value, JavaType) -> bool,
    convert: (Value, JavaType) -> Either<Value, ConvertError>,
    name: string
  )

  /** The two subclasses: E is BigDecimal or Double. */
  datatype Intermediate = BigDecimalTarget | DoubleTarget

  /** expressionTypeValue: the class of E. */
  function ExpressionTypeValue(e: Intermediate): JavaType {
    match e
    case BigDecimalTarget => BIG_DECIMAL
    case DoubleTarget => DOUBLE
  }

  /** The unchecked cast of the wrapped converter's answer to E failing at run time. */
  datatype CastError = ClassCast(value: Value, target: JavaType)

  /** expressionNumber(E): ExpressionNumber.with of the E value; any other value fails the cast to E. */
  function ExpressionNumberOf(e: Intermediate, value: Value): (r: Result<ExpressionNumber, CastError>)
    ensures r.Failure? ==> r.error == ClassCast(value, ExpressionTypeValue(e))
  {
    match (e, value)
    case (BigDecimalTarget, NumberValue(BigDecimalNumber(d))) => Success(ExpressionNumberBigDecimal(d))
    case (DoubleTarget, NumberValue(DoubleNumber(x))) => Success(ExpressionNumberDouble(x))
    case _ => Failure(ClassCast(value, ExpressionTypeValue(e)))
  }

  /** The E value an ExpressionNumber holds. */
  function NumberValueOf(n: ExpressionNumber): Value {
    match n
    case ExpressionNumberBigDecimal(d) => NumberValue(BigDecimalNumber(d))
    case ExpressionNumberDouble(x) => NumberValue(DoubleNumber(x))
  }

  function IntermediateOf(n: ExpressionNumber): Intermediate {
    match n
    case ExpressionNumberBigDecimal(_) => BigDecimalTarget
    case ExpressionNumberDouble(_) => DoubleTarget
  }

  /** Wrapping is exact: an ExpressionNumber is rebuilt from the value it holds, and only from such a value. */
  lemma ExpressionNumberRoundTrip(e: Intermediate, n: ExpressionNumber, value: Value)
    ensures ExpressionNumberOf(IntermediateOf(n), NumberValueOf(n)) == Success(n)
    ensures ExpressionNumberOf(e, value).Success? ==>
              NumberValueOf(ExpressionNumberOf(e, value).value) == value &&
              IntermediateOf(ExpressionNumberOf(e, value).value) == e
  {
  }

  datatype NumberExpressionNumber = NumberExpressionNumber(intermediate: Intermediate, converter: Converter)

  /**
    canConvert: the wrapped converter can convert the value to the type, or to E.
    A value the wrapped converter can turn into E is therefore claimed convertible
    to every type, and the wrapper claims no less than the wrapped converter.
   */
  predicate CanConvert(c: NumberExpressionNumber, value: Value, target: JavaType): (r: bool)
    ensures c.converter.canConvert(value, target) ==> r
    ensures c.converter.canConvert(value, ExpressionTypeValue(c.intermediate)) ==> r
    ensures r ==> c.converter.canConvert(value, target) || c.converter.canConvert(value, ExpressionTypeValue(c.intermediate))
  {
    c.converter.canConvert(value, target) || c.converter.canConvert(value, ExpressionTypeValue(c.intermediate))
  }

  /**
    converterConvertAndCreateExpressionNumber: convert to E; a failure becomes the
    standard failure for the requested type, a success is wrapped. The requested
    type is not consulted otherwise.
   */
  function ConvertAndCreateExpressionNumber(c: NumberExpressionNumber, value: Value, target: JavaType): (r: Result<Either<Value, ConvertError>, CastError>)
    ensures c.converter.convert(value, ExpressionTypeValue(c.intermediate)).Right? <==> r == Success(Right(FailConversion(value, target)))
    ensures r.Success? && r.value.Left? ==>
              r.value.left.ExpressionNumberValue? &&
              NumberValueOf(r.value.left.expressionNumber) == c.converter.convert(value, ExpressionTypeValue(c.intermediate)).left
    ensures var converted := c.converter.convert(value, ExpressionTypeValue(c.intermediate));
            converted.Left? ==>
              var n := ExpressionNumberOf(c.intermediate, converted.left);
              && (r.Success? <==> n.Success?)
              && (n.Success? ==> r.value == Left(ExpressionNumberValue(n.value)))
              && (n.Failure? ==> r.error == ClassCast(converted.left, ExpressionTypeValue(c.intermediate)))
  {
    match c.converter.convert(value, ExpressionTypeValue(c.intermediate))
    case Right(_) => Success(Right(FailConversion(value, target)))
    case Left(e) =>
      var n :- ExpressionNumberOf(c.intermediate, e);
      Success(Left(ExpressionNumberValue(n)))
  }

  /** convert: the wrapped converter's own answer when it can convert to the type, else the ExpressionNumber route. */
  function Convert(c: NumberExpressionNumber, value: Value, target: JavaType): (r: Result<Either<Value, ConvertError>, CastError>)
    ensures c.converter.canConvert(value, target) ==> r == Success(c.converter.convert(value, target))
    ensures !c.converter.canConvert(value, target) ==> r == ConvertAndCreateExpressionNumber(c, value, target)
  {
    if c.converter.canConvert(value, target) then
      Success(c.converter.convert(value, target))
    else
      ConvertAndCreateExpressionNumber(c, value, target)
  }

  /** toString: the wrapped converter's, then "|ExpressionNumber(" and the simple name of E. */
  function ToString(c: NumberExpressionNumber): string {
    c.converter.name + "|" + SimpleName(EXPRESSION_NUMBER) + "(" + SimpleName(ExpressionTypeValue(c.intermediate)) + ")"
  }

  lemma ToStringFormat(c: NumberExpressionNumber)
    ensures c.intermediate.BigDecimalTarget? ==> ToString(c) == c.converter.name + "|" + "ExpressionNumber" + "(" + "BigDecimal" + ")"
    ensures c.intermediate.DoubleTarget? ==> ToString(c) == c.converter.name + "|" + "ExpressionNumber" + "(" + "Double" + ")"
  {
    SimpleNameOfExpressionNumber();
    SimpleNamesOfNumberTypes();
  }

  // Consistency ......................................................................................................

  /** A converter that converts exactly what it says it can. */
  ghost predicate Exact(converter: Converter) {
    forall value, target :: converter.canConvert(value, target) <==> converter.convert(value, target).Left?
  }

  /** A converter whose successful conversions to E really are E values. */
  ghost predicate ProducesIntermediate(converter: Converter, e: Intermediate) {
    forall value ::
      converter.convert(value, ExpressionTypeValue(e)).Left? ==>
        ExpressionNumberOf(e, converter.convert(value, ExpressionTypeValue(e)).left).Success?
  }

  /**
    Wrapping an exact converter that produces E values gives an exact converter:
    canConvert holds exactly when convert succeeds, and no cast fails.
   */
  lemma WrappingKeepsExactness(c: NumberExpressionNumber, value: Value, target: JavaType)
    requires Exact(c.converter) && ProducesIntermediate(c.converter, c.intermediate)
    ensures Convert(c, value, target).Success?
    ensures CanConvert(c, value, target) <==> Convert(c, value, target).value.Left?
  {
    var e := ExpressionTypeValue(c.intermediate);
    assert c.converter.canConvert(value, target) <==> c.converter.convert(value, target).Left?;
    assert c.converter.canConvert(value, e) <==> c.converter.convert(value, e).Left?;
  }

  /**
    The ExpressionNumber route does not look at the requested type: two types the
    wrapped converter cannot handle get the same successful answer.
   */
  lemma FallbackIgnoresTarget(c: NumberExpressionNumber, value: Value, t1: JavaType, t2: JavaType)
    requires !c.converter.canConvert(value, t1) && !c.converter.canConvert(value, t2)
    requires c.converter.convert(value, ExpressionTypeValue(c.intermediate)).Left?
    ensures Convert(c, value, t1) == Convert(c, value, t2)
  {
  }

  /**
    A value the wrapped converter turns into a BigDecimal but cannot turn into a
    String is answered, for the String type, with an ExpressionNumber.
   */
  lemma StringRequestGetsExpressionNumber(c: NumberExpressionNumber, value: Value, d: Decimal)
    requires c.intermediate.BigDecimalTarget?
    requires !c.converter.canConvert(value, STRING)
    requires c.converter.convert(value, BIG_DECIMAL) == Left(NumberValue(BigDecimalNumber(d)))
    ensures CanConvert(c, value, STRING) <==> c.converter.canConvert(value, BIG_DECIMAL)
    ensures Convert(c, value, STRING) == Success(Left(ExpressionNumberValue(ExpressionNumberBigDecimal(d))))
  {
  }
}

=== FILE: number_reducer.dfy ===
/**
  The skeleton every binary ExpressionNumber reducer visitor shares: two
  java.lang.Number operands are brought to a common representation, and the
  operator's per-representation visit computes the result.

  The promotion rules live in base visitor classes that are not part of this
  model; here they are functions carried by the reducer context, together with
  the floating point and BigDecimalMath primitives the visits call.
 */
module NumberReducer {
  import opened Results
  import opened Numbers

  /** Two operands of one representation, ready for a per-representation visit. */
  datatype SamePair =
    | Longs(leftLong: Long, rightLong: Long)
    | Doubles(leftDouble: Double, rightDouble: Double)
    | BigIntegers(leftBigInteger: int, rightBigInteger: int)
    | BigDecimals(leftBigDecimal: Decimal, rightBigDecimal: Decimal)

  /** Two integral operands, as the logical (bitwise) visitors see them. */
  datatype IntegralPair =
    | LongPair(leftLong: Long, rightLong: Long)
    | BigIntegerPair(leftBigInteger: int, rightBigInteger: int)

  /**
    ExpressionNumberReducerContext plus the collaborators a visit calls:
    - mathContext: the precision and rounding decimal operations use;
    - promote: the arithmetic base visitor's promotion of two operands of
      different representations;
    - logicalPromote: the logical base visitor's conversion of operands that are
      not a long pair or a BigInteger pair;
    - decimalPow: BigDecimalMath.pow, which may throw;
    - doublePow: Math.pow;
    - longToDouble: Java's widening conversion from long to double.
   */
  datatype ReducerContext = ReducerContext(
    mathContext: MathContext,
    promote: (Number, Number) -> SamePair,
    logicalPromote: (Number, Number) -> IntegralPair,
    decimalPow: (Decimal, Decimal, MathContext) -> Result<Decimal, ArithmeticError>,
    doublePow: (Double, Double) -> Double,
    longToDouble: Long -> Double
  )

  /** The pair two operands already form, when they share a representation. */
  function SameRepresentation(left: Number, right: Number): (r: Option<SamePair>)
    ensures r.Some? <==>
              || (left.LongNumber? && right.LongNumber?)
              || (left.DoubleNumber? && right.DoubleNumber?)
              || (left.BigIntegerNumber? && right.BigIntegerNumber?)
              || (left.BigDecimalNumber? && right.BigDecimalNumber?)
    ensures r == Some(Longs(left.long, right.long)) <== left.LongNumber? && right.LongNumber?
    ensures r == Some(BigIntegers(left.bigInteger, right.bigInteger)) <== left.BigIntegerNumber? && right.BigIntegerNumber?
  {
    match (left, right)
    case (LongNumber(a), LongNumber(b)) => Some(Longs(a, b))
    case (DoubleNumber(a), DoubleNumber(b)) => Some(Doubles(a, b))
    case (BigIntegerNumber(a), BigIntegerNumber(b)) => Some(BigIntegers(a, b))
    case (BigDecimalNumber(a), BigDecimalNumber(b)) => Some(BigDecimals(a, b))
    case _ => None
  }

  /** The pair an arithmetic visit receives: the operands themselves, or their promotion. */
  function Dispatch(left: Number, right: Number, context: ReducerContext): (r: SamePair)
    ensures SameRepresentation(left, right).Some? ==> Some(r) == SameRepresentation(left, right)
    ensures SameRepresentation(left, right).None? ==> r == context.promote(left, right)
  {
    match SameRepresentation(left, right)
    case Some(pair) => pair
    case None => context.promote(left, right)
  }
}

=== FILE: number_reducer_and.dfy ===
/**
  ExpressionNumberReducerBinaryExpressionNumberVisitorAnd: the bitwise AND of
  two numbers. A BigInteger pair and a long pair are visited directly; any other
  pair is first converted by the logical base visitor to one of those two.
 */
module NumberReducerAnd {
  import opened Numbers
  import opened NumberReducer

  const NAME := "and"

  /** The AND visit of an integral pair. */
  function AndPair(pair: IntegralPair): (r: Number)
    ensures pair.LongPair? ==> r.LongNumber?
    ensures pair.BigIntegerPair? ==> r.BigIntegerNumber?
  {
    match pair
    case LongPair(a, b) => LongNumber(LongAnd(a, b))
    case BigIntegerPair(a, b) => BigIntegerNumber(IntAnd(a, b))
  }

  /** `compute(left, right, context)`: one dispatch, whose visit's result is returned. */
  function Compute(left: Number, right: Number, context: ReducerContext): (r: Number)
    ensures r.LongNumber? || r.BigIntegerNumber?
    ensures left.BigIntegerNumber? && right.BigIntegerNumber? ==>
              r.BigIntegerNumber? &&
              forall i: nat :: Bit(r.bigInteger, i) <==> Bit(left.bigInteger, i) && Bit(right.bigInteger, i)
    ensures left.LongNumber? && right.LongNumber? ==>
              r.LongNumber? &&
              forall i: nat :: Bit(r.long, i) <==> Bit(left.long, i) && Bit(right.long, i)
  {
    match (left, right)
    case (BigIntegerNumber(a), BigIntegerNumber(b)) =>
      assert forall i: nat :: Bit(IntAnd(a, b), i) <==> Bit(a, i) && Bit(b, i) by {
        forall i: nat {
          IntAndBits(a, b, i);
        }
      }
      BigIntegerNumber(IntAnd(a, b))
    case (LongNumber(a), LongNumber(b)) => LongNumber(LongAnd(a, b))
    case _ => AndPair(context.logicalPromote(left, right))
  }

  /** A pair already in an integral representation never consults the promotion. */
  lemma IntegralPairIgnoresPromotion(left: Number, right: Number, c1: ReducerContext, c2: ReducerContext)
    requires (left.LongNumber? && right.LongNumber?) || (left.BigIntegerNumber? && right.BigIntegerNumber?)
    ensures Compute(left, right, c1) == Compute(left, right, c2)
  {
  }

  /**
    AND is commutative: unconditionally for two longs or two BigIntegers, and for
    other pairs whenever the promotion treats the swapped operands alike.
   */
  lemma AndCommutative(left: Number, right: Number, context: ReducerContext)
    requires || (left.LongNumber? && right.LongNumber?)
             || (left.BigIntegerNumber? && right.BigIntegerNumber?)
             || context.logicalPromote(right, left) == Swap(context.logicalPromote(left, right))
    ensures Compute(left, right, context) == Compute(right, left, context)
  {
    if left.BigIntegerNumber? && right.BigIntegerNumber? {
      IntAndCommutative(left.bigInteger, right.bigInteger);
    } else if left.LongNumber? && right.LongNumber? {
      IntAndCommutative(left.long, right.long);
    } else {
      AndPairSwap(context.logicalPromote(left, right));
    }
  }

  function Swap(pair: IntegralPair): IntegralPair {
    match pair
    case LongPair(a, b) => LongPair(b, a)
    case BigIntegerPair(a, b) => BigIntegerPair(b, a)
  }

  lemma AndPairSwap(pair: IntegralPair)
    ensures AndPair(Swap(pair)) == AndPair(pair)
  {
    match pair
    case LongPair(a, b) => IntAndCommutative(a, b);
    case BigIntegerPair(a, b) => IntAndCommutative(a, b);
  }

  /** x AND x is x, for a long and for a BigInteger. */
  lemma AndIdempotent(x: Number, context: ReducerContext)
    requires x.LongNumber? || x.BigIntegerNumber?
    ensures Compute(x, x, context) == x
  {
    if x.BigIntegerNumber? {
      IntAndIdempotent(x.bigInteger);
    } else {
      IntAndIdempotent(x.long);
    }
  }
}

=== FILE: number_reducer_power.dfy ===
/**
  ExpressionNumberReducerBinaryExpressionNumberVisitorPower: raising a number to
  a power. BigDecimals use BigDecimalMath.pow under the context's MathContext;
  BigIntegers are raised as BigDecimals and the result converted back exactly;
  doubles and longs both use Math.pow, so a long pair yields a double. An
  exception from BigDecimalMath.pow becomes the result's failure.
 */
module NumberReducerPower {
  import opened Results
  import opened Numbers
  import opened NumberReducer

  const NAME := "power"

  /** The decimal power under the context's MathContext, or the exception BigDecimalMath.pow throws. */
  function DecimalPower(a: Decimal, b: Decimal, context: ReducerContext): Result<Decimal, ArithmeticError> {
    context.decimalPow(a, b, context.mathContext)
  }

  /** The visit for one representation. */
  function PowerPair(pair: SamePair, context: ReducerContext): (r: Result<Number, ArithmeticError>)
    ensures pair.BigDecimals? ==>
              var p := DecimalPower(pair.leftBigDecimal, pair.rightBigDecimal, context);
              (r.Success? <==> p.Success?) &&
              (r.Success? ==> r.value == BigDecimalNumber(p.value)) &&
              (r.Failure? ==> r.error == p.error)
    ensures pair.BigIntegers? && r.Success? ==> r.value.BigIntegerNumber?
    ensures pair.BigIntegers? ==>
              var p := DecimalPower(ToBigDecimal(pair.leftBigInteger), ToBigDecimal(pair.rightBigInteger), context);
              p.Failure? ==> r == Failure(p.error)
    ensures pair.Doubles? || pair.Longs? ==> r.Success? && r.value.DoubleNumber?
  {
    match pair
    case BigDecimals(a, b) =>
      var d :- DecimalPower(a, b, context);
      Success(BigDecimalNumber(d))
    case BigIntegers(a, b) =>
      var d :- DecimalPower(ToBigDecimal(a), ToBigDecimal(b), context);
      var n :- ToBigIntegerExact(d);
      Success(BigIntegerNumber(n))
    case Doubles(a, b) =>
      Success(DoubleNumber(context.doublePow(a, b)))
    case Longs(a, b) =>
      Success(DoubleNumber(context.doublePow(context.longToDouble(a), context.longToDouble(b))))
  }

  /**
    `compute(left, right, context)`: one dispatch, whose visit's result is
    returned. Power never yields a long, and only the decimal routes can fail.
   */
  function Compute(left: Number, right: Number, context: ReducerContext): (r: Result<Number, ArithmeticError>)
    ensures r.Success? ==> !r.value.LongNumber?
    ensures r.Failure? ==> Dispatch(left, right, context).BigDecimals? || Dispatch(left, right, context).BigIntegers?
  {
    PowerPair(Dispatch(left, right, context), context)
  }

  /** The representation of the result follows the representation of the operands. */
  lemma PowerResultRepresentation(left: Number, right: Number, context: ReducerContext)
    ensures left.BigDecimalNumber? && right.BigDecimalNumber? ==>
              var p := context.decimalPow(left.bigDecimal, right.bigDecimal, context.mathContext);
              Compute(left, right, context) == if p.Success? then Success(BigDecimalNumber(p.value)) else Failure(p.error)
    ensures left.LongNumber? && right.LongNumber? ==>
              Compute(left, right, context).Success? && Compute(left, right, context).value.DoubleNumber?
    ensures left.DoubleNumber? && right.DoubleNumber? ==>
              Compute(left, right, context).Success? && Compute(left, right, context).value.DoubleNumber?
    ensures left.BigIntegerNumber? && right.BigIntegerNumber? && Compute(left, right, context).Success? ==>
              Compute(left, right, context).value.BigIntegerNumber?
  {
  }

  /**
    A BigInteger pair is visited by re-visiting its BigDecimal conversions and
    converting that decimal result back: the outcome is the integer the decimal
    power denotes, or RoundingNecessary when it denotes none.
   */
  lemma BigIntegerPowerIsExact(a: int, b: int, context: ReducerContext, n: int)
    ensures var p := DecimalPower(ToBigDecimal(a), ToBigDecimal(b), context);
            Compute(BigIntegerNumber(a), BigIntegerNumber(b), context) == Success(BigIntegerNumber(n)) <==>
            p.Success? && Denotes(p.value, n)
  {
    var p := DecimalPower(ToBigDecimal(a), ToBigDecimal(b), context);
    if p.Success? {
      ExactIffDenotes(p.value, n);
    }
  }

  /**
    A BigInteger pair fails with RoundingNecessary exactly when the decimal power
    has a fractional part, and with pow's own exception when pow throws.
   */
  lemma BigIntegerPowerFailure(a: int, b: int, context: ReducerContext)
    ensures var p := DecimalPower(ToBigDecimal(a), ToBigDecimal(b), context);
            p.Success? ==>
              (Compute(BigIntegerNumber(a), BigIntegerNumber(b), context) == Failure(RoundingNecessary) <==>
               forall n :: !Denotes(p.value, n))
    ensures var p := DecimalPower(ToBigDecimal(a), ToBigDecimal(b), context);
            p.Failure? ==> Compute(BigIntegerNumber(a), BigIntegerNumber(b), context) == Failure(p.error)
  {
  }

  /**
    2 POWER 10 on BigIntegers: whatever scale BigDecimalMath.pow chooses for the
    exact answer, the result is the BigInteger 1024.
   */
  lemma TwoPowerTen(context: ReducerContext, scale: nat)
    requires DecimalPower(ToBigDecimal(2), ToBigDecimal(10), context) == Success(Decimal(1024 * Pow10(scale), scale))
    ensures Compute(BigIntegerNumber(2), BigIntegerNumber(10), context) == Success(BigIntegerNumber(1024))
  {
    ExactIffDenotes(Decimal(1024 * Pow10(scale), scale), 1024);
  }

  /** Same-representation operands never consult the promotion. */
  lemma SameRepresentationIgnoresPromotion(left: Number, right: Number, c1: ReducerContext, c2: ReducerContext)
    requires SameRepresentation(left, right).Some?
    requires c1.(promote := c2.promote) == c2
    ensures Compute(left, right, c1) == Compute(left, right, c2)
  {
  }
}

=== FILE: numbers.dfy ===
/**
  The primitive numeric representations the reducers dispatch over, and the
  exact integer arithmetic behind them.

  - Long is a Java long, an integer in the 64-bit two's-complement range.
  - Double is an IEEE-754 double, held as its 64-bit pattern. Floating point
    arithmetic itself is not modelled; operations that produce doubles take
    their floating point primitive as a parameter.
  - BigInteger is an unbounded int.
  - BigDecimal is unscaledValue * 10^-scale, as java.math.BigDecimal.
 */
module Numbers {
  import opened Results

  datatype Double = Double(bits: bv64)

  datatype Decimal = Decimal(unscaled: int, scale: int)

  datatype RoundingMode = Up | Down | Ceiling | Floor | HalfUp | HalfDown | HalfEven | Unnecessary

  /** java.math.MathContext: the precision and rounding a decimal operation uses. */
  datatype MathContext = MathContext(precision: nat, roundingMode: RoundingMode)

  /** The java.lang.Number subclasses a reducer visitor distinguishes. */
  datatype Number =
    | LongNumber(long: Long)
    | DoubleNumber(double: Double)
    | BigIntegerNumber(bigInteger: int)
    | BigDecimalNumber(bigDecimal: Decimal)

  /** The value an ExpressionNumber wraps: a BigDecimal or a Double. */
  datatype ExpressionNumber = ExpressionNumberBigDecimal(bigDecimal: Decimal) | ExpressionNumberDouble(double: Double)

  /**
    The exceptions a decimal computation throws: RoundingNecessary is
    BigDecimal.toBigIntegerExact's for a value with a non-zero fraction, and
    PowerFailed stands for whatever BigDecimalMath.pow throws (zero to a negative
    power, an unsupported MathContext).
   */
  datatype ArithmeticError = RoundingNecessary | PowerFailed

  // Powers ..........................................................................................................

  function Pow2(n: nat): (r: nat)
    ensures r > 0
  {
    if n == 0 then 1 else 2 * Pow2(n - 1)
  }

  function Pow10(n: nat): (r: nat)
    ensures r > 0
  {
    if n == 0 then 1 else 10 * Pow10(n - 1)
  }

  function Abs(a: int): nat {
    if a < 0 then -a else a
  }

  /** Euclidean division by a positive divisor has exactly one quotient and remainder. */
  lemma DivUnique(x: int, d: int, q: int, r: int)
    requires d > 0 && 0 <= r < d && x == d * q + r
    ensures x / d == q && x % d == r
  {
    var q', r' := x / d, x % d;
    assert x == d * q' + r';
    assert d * (q - q') == r' - r;
    SmallMultiple(d, q - q');
  }

  /** The only multiple of d strictly between -d and d is zero. */
  lemma SmallMultiple(d: int, k: int)
    requires d > 0 && -d < d * k < d
    ensures k == 0
  {
    if k >= 1 {
      MulAtLeast(d, k);
    } else if k <= -1 {
      MulAtLeast(d, -k);
    }
  }

  lemma MulAtLeast(d: int, k: int)
    requires d > 0 && k >= 1
    ensures d * k >= d
  {
    assert d * k == d + d * (k - 1);
  }

  /** Halving, then dividing by p, is dividing by 2p. */
  lemma DivHalf(x: int, p: int)
    requires p > 0
    ensures x / (2 * p) == (x / 2) / p
  {
    var h, c := x / 2, x % 2;
    var q, s := h / p, h % p;
    assert h == p * q + s;
    assert x == (2 * p) * q + (2 * s + c);
    DivUnique(x, 2 * p, q, 2 * s + c);
  }

  // Two's-complement bits ...........................................................................................

  /**
    Bit i of the infinite two's-complement expansion of a, as BigInteger.testBit
    defines it: Euclidean division floors, so a negative number has infinitely
    many leading one bits.
   */
  predicate Bit(a: int, i: nat) {
    (a / Pow2(i)) % 2 == 1
  }

  lemma ZeroBits(i: nat)
    ensures !Bit(0, i)
  {
  }

  lemma MinusOneBits(i: nat)
    ensures Bit(-1, i)
  {
    DivUnique(-1, Pow2(i), -1, Pow2(i) - 1);
  }

  /** Bit i of 2q + c is bit i - 1 of q, for a low bit c. */
  lemma BitShift(q: int, c: int, i: nat)
    requires 0 <= c < 2 && i > 0
    ensures Bit(2 * q + c, i) == Bit(q, i - 1)
  {
    DivHalf(2 * q + c, Pow2(i - 1));
    DivUnique(2 * q + c, 2, q, c);
  }

  /** BigInteger.and: the bitwise AND of two two's-complement integers, one bit at a time. */
  function IntAnd(a: int, b: int): int
    decreases Abs(a)
  {
    if a == 0 || b == 0 then 0
    else if a == -1 then b
    else if b == -1 then a
    else 2 * IntAnd(a / 2, b / 2) + (if a % 2 == 1 && b % 2 == 1 then 1 else 0)
  }

  /** Every bit of IntAnd(a, b) is the conjunction of the operands' bits. */
  lemma {:induction false} IntAndBits(a: int, b: int, i: nat)
    ensures Bit(IntAnd(a, b), i) <==> Bit(a, i) && Bit(b, i)
    decreases Abs(a)
  {
    if a == 0 || b == 0 {
      ZeroBits(i);
    } else if a == -1 || b == -1 {
      MinusOneBits(i);
    } else {
      var q := IntAnd(a / 2, b / 2);
      var c := if a % 2 == 1 && b % 2 == 1 then 1 else 0;
      assert IntAnd(a, b) == 2 * q + c;
      if i == 0 {
        DivUnique(2 * q + c, 2, q, c);
      } else {
        BitShift(q, c, i);
        BitShift(a / 2, a % 2, i);
        BitShift(b / 2, b % 2, i);
        IntAndBits(a / 2, b / 2, i - 1);
      }
    }
  }

  lemma {:induction false} IntAndCommutative(a: int, b: int)
    ensures IntAnd(a, b) == IntAnd(b, a)
    decreases Abs(a)
  {
    if a == 0 || b == 0 || a == -1 || b == -1 {
    } else {
      IntAndCommutative(a / 2, b / 2);
    }
  }

  lemma {:induction false} IntAndIdempotent(a: int)
    ensures IntAnd(a, a) == a
    decreases Abs(a)
  {
    if a == 0 || a == -1 {
    } else {
      IntAndIdempotent(a / 2);
    }
  }

  // Longs ...........................................................................................................

  /** a fits in n + 1 bits of two's complement: -2^n <= a < 2^n. */
  predicate InSignedRange(a: int, n: nat) {
    var p: int := Pow2(n);
    -p <= a < p
  }

  /** A Java long: an integer in the 64-bit two's-complement range. */
  type Long = x: int | InSignedRange(x, 63)

  lemma HalfWithin(a: int, h: int)
    requires h > 0 && -2 * h <= a < 2 * h
    ensures -h <= a / 2 < h
  {
  }

  /** The AND of two numbers of n + 1 bits fits in n + 1 bits. */
  lemma {:induction false} IntAndWithin(a: int, b: int, n: nat)
    requires InSignedRange(a, n) && InSignedRange(b, n)
    ensures InSignedRange(IntAnd(a, b), n)
    decreases n
  {
    if a == 0 || b == 0 || a == -1 || b == -1 {
    } else {
      assert n > 0;
      var h := Pow2(n - 1);
      HalfWithin(a, h);
      HalfWithin(b, h);
      IntAndWithin(a / 2, b / 2, n - 1);
    }
  }

  /**
    The `&` operator on two Java longs: every bit of the 64-bit result, and so
    every bit of its sign extension, is the conjunction of the operands' bits.
    The result is again a long, so the operator cannot overflow.
   */
  function LongAnd(x: Long, y: Long): (r: Long)
    ensures forall i: nat :: Bit(r, i) <==> Bit(x, i) && Bit(y, i)
  {
    IntAndWithin(x, y, 63);
    assert forall i: nat :: Bit(IntAnd(x, y), i) <==> Bit(x, i) && Bit(y, i) by {
      forall i: nat {
        IntAndBits(x, y, i);
      }
    }
    IntAnd(x, y)
  }

  /** Two integers with the same two's-complement bits are equal. */
  lemma {:induction false} BitsDetermineValue(a: int, b: int)
    requires forall i: nat :: Bit(a, i) == Bit(b, i)
    ensures a == b
    decreases Abs(a) + Abs(b)
  {
    assert Bit(a, 0) == Bit(b, 0);
    assert a % 2 == b % 2;
    forall i: nat
      ensures Bit(a / 2, i) == Bit(b / 2, i)
    {
      assert Bit(a, i + 1) == Bit(b, i + 1);
      BitShift(a / 2, a % 2, i + 1);
      BitShift(b / 2, b % 2, i + 1);
    }
    if (a == 0 || a == -1) && (b == 0 || b == -1) {
    } else {
      BitsDetermineValue(a / 2, b / 2);
    }
  }

  /** Any integer whose bits are the conjunction of a's and b's bits is BigInteger.and(a, b). */
  lemma AndIsUnique(a: int, b: int, r: int)
    requires forall i: nat :: Bit(r, i) <==> Bit(a, i) && Bit(b, i)
    ensures r == IntAnd(a, b)
  {
    forall i: nat
      ensures Bit(r, i) == Bit(IntAnd(a, b), i)
    {
      IntAndBits(a, b, i);
    }
    BitsDetermineValue(r, IntAnd(a, b));
  }

  // Decimals ........................................................................................................

  /** BigDecimal.valueOf(BigInteger): scale zero, same unscaled value. */
  function ToBigDecimal(n: int): Decimal {
    Decimal(n, 0)
  }

  /** The decimal d has the integer n as its exact value. */
  ghost predicate Denotes(d: Decimal, n: int) {
    if d.scale <= 0 then n == d.unscaled * Pow10(-d.scale)
    else d.unscaled == n * Pow10(d.scale)
  }

  /** BigDecimal.toBigIntegerExact: the integer value, or RoundingNecessary for a non-zero fraction. */
  function ToBigIntegerExact(d: Decimal): (r: Result<int, ArithmeticError>)
    ensures r.Success? ==> Denotes(d, r.value)
    ensures r.Failure? ==> forall n :: !Denotes(d, n)
    ensures r.Failure? ==> r.error == RoundingNecessary
  {
    if d.scale <= 0 then
      Success(d.unscaled * Pow10(-d.scale))
    else if d.unscaled % Pow10(d.scale) == 0 then
      DivUnique(d.unscaled, Pow10(d.scale), d.unscaled / Pow10(d.scale), 0);
      Success(d.unscaled / Pow10(d.scale))
    else
      assert forall n :: !Denotes(d, n) by {
        forall n | Denotes(d, n) ensures false {
          DivUnique(d.unscaled, Pow10(d.scale), n, 0);
        }
      }
      Failure(RoundingNecessary)
  }

  /** toBigIntegerExact succeeds with n exactly when n is the decimal's value. */
  lemma ExactIffDenotes(d: Decimal, n: int)
    ensures ToBigIntegerExact(d) == Success(n) <==> Denotes(d, n)
  {
    if Denotes(d, n) && d.scale > 0 {
      DivUnique(d.unscaled, Pow10(d.scale), n, 0);
    }
  }

  /** Converting an integer to a decimal and back is exact. */
  lemma BigDecimalRoundTrip(n: int)
    ensures ToBigIntegerExact(ToBigDecimal(n)) == Success(n)
  {
    ExactIffDenotes(ToBigDecimal(n), n);
  }
}

=== FILE: results.dfy ===
/**
  Failure-carrying wrappers shared by the whole model.

  - Option models java.util.Optional.
  - Result models a computation that either returns a value or throws; the
    failure payload names the exception the Java code raises.
  - Either models walkingkooka.Either as the converters use it: Left holds the
    converted value, Right the failure.
 */
module Results {

  datatype Option<+T> = None | Some(value: T)

  datatype Result<+T, +E> = Success(value: T) | Failure(error: E) {
    predicate IsFailure() {
      Failure?
    }

    function PropagateFailure<U>(): Result<U, E>
      requires Failure?
    {
      Failure(error)
    }

    function Extract(): T
      requires Success?
    {
      value
    }
  }

  /** The outcome of a check that returns nothing or throws. */
  datatype Outcome<+E> = Pass | Fail(error: E)

  datatype Either<+L, +R> = Left(left: L) | Right(right: R)
}

=== FILE: starts_with_function.dfy ===
/**
  StartsWithExpressionFunction: given exactly two arguments, both converted to
  strings, true when the first starts with the second.
 */
module StartsWithFunction {
  import opened Results
  import opened JavaTypes
  import opened Values

  const NAME := "starts-with"

  /** Why a call fails: the wrong number of arguments, or an argument that is not a string. */
  datatype Error =
    | ParameterCount(got: nat, expected: nat)
    | Conversion(error: ConvertError)
    | NotAString(value: Value)

  /** Argument i converted to a String through the context. */
  function StringParameter(values: seq<Value>, i: nat, context: FunctionContext): (r: Result<string, Error>)
    requires i < |values|
    ensures r.Success? <==> context.convert(values[i], STRING).Left? && context.convert(values[i], STRING).left.StringValue?
    ensures r.Success? ==> r.value == context.convert(values[i], STRING).left.text
    ensures context.convert(values[i], STRING).Right? ==> r == Failure(Conversion(context.convert(values[i], STRING).right))
    ensures context.convert(values[i], STRING).Left? && !context.convert(values[i], STRING).left.StringValue? ==>
              r == Failure(NotAString(context.convert(values[i], STRING).left))
  {
    match ConvertOrFail(context, values[i], STRING)
    case Failure(e) => Failure(Conversion(e))
    case Success(StringValue(s)) => Success(s)
    case Success(v) => Failure(NotAString(v))
  }

  /** String.startsWith: the prefix matches the text character by character. */
  function StartsWith(text: string, prefix: string): (r: bool)
    ensures r <==> prefix <= text
  {
    if |prefix| > |text| then false
    else if |prefix| == 0 then true
    else
      assert prefix <= text <==> text[0] == prefix[0] && prefix[1..] <= text[1..] by {
        if text[0] == prefix[0] && prefix[1..] <= text[1..] {
          assert prefix == [prefix[0]] + prefix[1..];
          assert text[..|prefix|] == [text[0]] + text[1..][..|prefix| - 1];
        }
      }
      text[0] == prefix[0] && StartsWith(text[1..], prefix[1..])
  }

  /** apply: exactly two arguments, then the prefix test on their string conversions. */
  function Apply(values: seq<Value>, context: FunctionContext): (r: Result<bool, Error>)
    ensures |values| != 2 ==> r == Failure(ParameterCount(|values|, 2))
    ensures r.Success? <==>
              |values| == 2 && StringParameter(values, 0, context).Success? && StringParameter(values, 1, context).Success?
    ensures r.Success? ==>
              (r.value <==> StringParameter(values, 1, context).value <= StringParameter(values, 0, context).value)
    ensures |values| == 2 && StringParameter(values, 0, context).Failure? ==>
              r == Failure(StringParameter(values, 0, context).error)
    ensures |values| == 2 && StringParameter(values, 0, context).Success? && StringParameter(values, 1, context).Failure? ==>
              r == Failure(StringParameter(values, 1, context).error)
  {
    if |values| != 2 then
      Failure(ParameterCount(|values|, 2))
    else
      var text :- StringParameter(values, 0, context);
      var prefix :- StringParameter(values, 1, context);
      Success(StartsWith(text, prefix))
  }

  function Name(): string {
    NAME
  }

  function ToString(): string {
    Name()
  }

  /** The empty string prefixes everything, every string starts with itself, and a longer prefix never matches. */
  lemma PrefixEdgeCases(text: string, prefix: string)
    ensures StartsWith(text, "")
    ensures StartsWith(text, text)
    ensures |prefix| > |text| ==> !StartsWith(text, prefix)
    ensures StartsWith(text, prefix) ==> StartsWith(text, prefix[..|prefix| / 2])
  {
  }

  /** The context converts every string to itself. */
  ghost predicate StringsConvertToThemselves(context: FunctionContext) {
    forall s :: context.convert(StringValue(s), STRING) == Left(StringValue(s))
  }

  /** On two string arguments the result is the prefix test itself. */
  lemma ApplyOnStrings(text: string, prefix: string, context: FunctionContext)
    requires StringsConvertToThemselves(context)
    ensures Apply([StringValue(text), StringValue(prefix)], context) == Success(prefix <= text)
  {
    assert context.convert(StringValue(text), STRING) == Left(StringValue(text));
    assert context.convert(StringValue(prefix), STRING) == Left(StringValue(prefix));
  }

  /** The name is "starts-with" and toString is the name. */
  lemma NameAndToString()
    ensures Name() == "starts-with" && ToString() == Name()
  {
  }
}

=== FILE: values.dfy ===
/**
  The values that flow through function calls and conversions, and the
  conversion capability a function context offers.
 */
module Values {
  import opened Results
  import opened Numbers
  import opened JavaTypes

  /** ExpressionReference: a symbolic handle resolved later through a context. */
  datatype Reference = Reference(text: string)

  /** The java.lang.Object values the model distinguishes. */
  datatype Value =
    | NullValue
    | BooleanValue(boolean: bool)
    | StringValue(text: string)
    | NumberValue(number: Number)
    | ExpressionNumberValue(expressionNumber: ExpressionNumber)
    | ReferenceValue(reference: Reference)
    | OtherValue(id: int)

  /**
    Why a conversion failed: a converter's own message, or the standard
    "failed to convert value to type" failure.
   */
  datatype ConvertError = ConvertMessage(message: string) | FailConversion(value: Value, target: JavaType)

  /**
    ExpressionFunctionContext as a function parameter uses it: a conversion of a
    value to a target type that succeeds (Left) or fails (Right).
   */
  datatype FunctionContext = FunctionContext(convert: (Value, JavaType) -> Either<Value, ConvertError>)

  /** convertOrFail: the converted value, or the conversion's failure raised as an error. */
  function ConvertOrFail(context: FunctionContext, value: Value, target: JavaType): (r: Result<Value, ConvertError>)
    ensures r.Success? <==> context.convert(value, target).Left?
    ensures r.Success? ==> r.value == context.convert(value, target).left
    ensures r.Failure? ==> r.error == context.convert(value, target).right
  {
    match context.convert(value, target)
    case Left(v) => Success(v)
    case Right(e) => Failure(e)
  }
}
